=== FILE: README.md ===
# A verified model of the block allocator in `src/mem.c`

The allocator keeps a singly linked chain of block headers in memory it maps
from the operating system. A header holds a `next` link, a `capacity` (the
usable bytes after the header) and an `is_free` flag. The contents of a block
start `offsetof(struct block_header, contents)` bytes after its header; this
model calls that offset `H` (17 on an LP64 target).

- `heap_init` maps a first region at `HEAP_START` and writes one free header
  over it.
- `_malloc` runs a first-fit search from `HEAP_START`. On the way, a free
  block that is too small is merged with its physical successor and
  examined again.
  - A block that fits is split when its tail is large enough to hold a
    block of its own. The block is then marked used.
  - When the chain is exhausted, the heap grows: a region is mapped after
    the last block, split and linked in, and the last block tries to merge
    with it. Then the last block and, when it has a successor, that
    successor are marked used.
- `_free` marks a block free and merges it with its successors while they
  are free and contiguous.

## How the model is built

- `layout.dfy` (module `Layout`): the constants, the `Header` value, the
  size/capacity conversions, and the page and region arithmetic. It also
  holds the pure predicates on headers and the contents-pointer conversion.
- `chain.dfy` (module `Chain`): the header store as a `map<nat, Header>`
  from address to header, and the chain as the sequence of reachable header
  addresses.
  - `IsChain` says the chain is a null-terminated acyclic list.
  - `Caps` sums the chain's capacities.
  - The two in-place rewrites are pure functions: `SplitMap` and
    `MergeMap`.
  - Lemmas show what each rewrite does to the chain, to the capacity sum
    and to the used blocks.
- `allocator.dfy` (module `Allocator`): class `Heap` with the store as a
  field `hdr` and the chain as a ghost field `chain`. Every function of
  `mem.c` that writes headers is a method there.
  - `BlockInit`, `AllocRegion`, `SplitIfTooBig`, `TryMergeWithNext` and
    `GrowHeap` are proved to perform exactly their map rewrite.
  - `FindGoodOrLast`, `GrowAndTake`, `Memalloc`, `Malloc` and `Free` state
    relations between the old and the new heap instead of the resulting
    store. These relations cover chain validity, the capacity sum, which
    blocks are used and where the returned block sits.
  - The two loops carry invariants backed by one step lemma per kind of
    iteration. The search loop keeps `Scanning`: the search state
    (`SearchRun`), the cursor (`Cursor`), a chain made of original headers
    (`Within`), and no original free block lost or shrunk (`FreeKept`). The
    release loop keeps `FreeRun`.
  - The growth branch of `memalloc` is the helper method
    `Heap.GrowAndTake`, which `Heap.Memalloc` calls.
  - The outcome of `memalloc` is stated by two predicates: `Taken` for a
    found block and `Grown` for the growth path. Each relates the heap
    before the call, the heap the search left behind and the final heap.

The model keeps the code's arithmetic as written:

- **Split overstates the remainder.** A split gives the remainder the
  capacity `old − max(q, 24)`. Only `old − max(q, 24) − H` bytes lie
  between the remainder's header and the old end of the block
  (`Chain.SplitRemainderOvershoots`).
- **Merge omits the header.** A merge adds the two capacities without the
  absorbed header's `H` bytes (`Chain.MergeUndercounts`). The two errors
  cancel when a block is split and merged back at once
  (`Chain.SplitThenMergeRestores`).
- **The growth hint is scaled.** `grow_heap` adds a size to a
  `struct block_header *`, so the offset is scaled by its `sizeof` (24).
  The hint therefore lies past the end of the last block
  (`Layout.GrowHintPastBlockEnd`). A region placed at the hint never
  merges with the last block (`Allocator.GrowExtends`).
- **A split can land on a live header.** Each split of a remainder adds
  another H bytes of overstatement. After a few splits, a split point can
  coincide with a header already in the chain, and the code does not guard
  against this.
  - The search methods return a ghost flag `clash` for this case. Their
    outcome (`Allocator.Searched`) sets it only when the found block now
    links to a split point that the chain listed when the search began.
  - The growth path has a `clash` flag too, for a different reason. There
    it is exactly `Allocator.GrowClash`: a header grow_heap writes is a
    chain header. Those headers lie inside the new region
    (`Allocator.GrowClashNeedsOverlap`). The operating system never
    returns a region that overlaps mapped memory, so they never clash.
    The model's region provider, however, is an unconstrained address, so
    the flag covers a provider that returns such a region.
  - `Heap.Memalloc` returns the store and chain the search left behind as
    ghost outputs `hs` and `cs`. Its growth-path flag is `GrowClash` of that
    state. Its `grew` flag is set only when the search reached the end,
    which happens only when no free block of the original chain fits
    (`Allocator.FitsFrom`): merges never shrink a free block.
  - They promise the chain invariant whenever `clash` is false.
  - `Closed(hdr)` is promised unconditionally: every stored link is null
    or a stored header.

## Model

| member | source | states |
|---|---|---|
| Layout.Placement | src/mem.c:52-66 | where alloc_region's mapping lands: at the hint when the fixed placement succeeds, else where the free placement puts it |
| Layout.Max | src/mem.c:106 | size_max: the result is at least each argument and is one of them |
| Layout.SizeSub | src/mem.c:219 | `size_t` subtraction: the exact difference when it is non-negative, otherwise the difference wrapped by 2^64 |
| Layout.SizeFromCapacity | src/mem.c:19-21 | size_from_capacity: a size of at least H from which capacity_from_size recovers the capacity |
| Layout.CapacityFromSize | src/mem.c:22-24 | capacity_from_size: the size less H, wrapped by 2^64 for a size below H |
| Layout.BlockIsBigEnough | src/mem.c:26 | block_is_big_enough: the capacity covers the query |
| Layout.BlockSplittable | src/mem.c:100-103 | block_splittable: the block is free and holds the query, a header and a minimum-capacity remainder |
| Layout.BlocksContinuous | src/mem.c:137-141 | blocks_continuous: the second header starts at block_after of the first |
| Layout.Mergeable | src/mem.c:143-145 | mergeable: both blocks free and continuous |
| Layout.ContentsOf | src/mem.c:262 | the contents pointer _malloc returns for a header |
| Layout.RegionIsInvalid | src/mem.c:74 | region_is_invalid: the region address is null |
| Layout.GrowHint | src/mem.c:221 | the hint of grow_heap, with the offset scaled by sizeof(struct block_header) |
| Layout.CapacitySizeRoundTrip | src/mem.c:19-24 | size_from_capacity adds H; capacity_from_size undoes it, and the reverse holds for sizes of at least H |
| Layout.PagesCount | src/mem.c:28 | pages_count is the least number of pages that holds `mem` bytes: zero for zero, and one page fewer would not suffice |
| Layout.RoundPages | src/mem.c:30 | round_pages is a multiple of the page size, at least `mem` and less than `mem` plus one page |
| Layout.RegionActualSize | src/mem.c:40 | region_actual_size is page-aligned, covers the query and REGION_MIN_SIZE, and exceeds the query by less than a page unless it is the minimum |
| Layout.BlockGetHeader | src/mem.c:266-269 | block_get_header inverts the contents pointer: the header's contents pointer is the given one |
| Layout.HeaderContentsRoundTrip | src/mem.c:260-269 | the pointer _malloc returns for a header maps back to that header in _free |
| Layout.BlockAfter | src/mem.c:133-135 | block_after lies at or past the block's contents pointer |
| Layout.GrowHintPastBlockEnd | src/mem.c:221 | the scaled hint lies past block_after(last), by 23 times the block's size |
| Chain.SplitPoint | src/mem.c:117 | the remainder header lies past the split block's contents pointer |
| Chain.CanSplit | src/mem.c:105-109 | split_if_too_big splits exactly when the block is splittable for the query floored at 24 |
| Chain.SplitMap | src/mem.c:105-128 | the store after split_if_too_big: the floored query as capacity, a link to a free remainder that inherits the old link and gets capacity_from_size of the old size less the floored query |
| Chain.CanMerge | src/mem.c:147-150 | try_merge_with_next merges exactly when a successor exists and the two blocks are mergeable |
| Chain.MergeMap | src/mem.c:147-156 | the store after try_merge_with_next: the capacities added and the link skipping the successor, or nothing changed |
| Chain.SplitKeepsClosed | src/mem.c:105-128 | a split adds exactly the split point to the store (nothing when it does not split) and keeps every link pointing at a stored header |
| Chain.SplitKeepsChain | src/mem.c:105-128 | a split whose point is not a chain header inserts it right after the block and keeps a null-terminated acyclic chain |
| Chain.SplitKeepsCaps | src/mem.c:105-128 | such a split keeps the chain's capacity sum |
| Chain.SplitKeepsUsed | src/mem.c:105-128 | such a split neither touches a used block nor makes one |
| Chain.MergeKeepsClosed | src/mem.c:147-156 | a merge changes no address of the store and keeps every link pointing at a stored header |
| Chain.MergeKeepsChain | src/mem.c:147-156 | a merge drops exactly the successor from the chain and keeps it a null-terminated acyclic chain |
| Chain.MergeKeepsCaps | src/mem.c:147-156 | a merge keeps the chain's capacity sum |
| Chain.MergeKeepsUsed | src/mem.c:147-156 | a merge neither touches a used block nor makes one |
| Chain.SplitThenMergeRestores | src/mem.c:105-156 | splitting a block and merging it with its remainder is possible and restores the block's header exactly |
| Chain.SplitRemainderOvershoots | src/mem.c:105-128 | after a split the block links to a contiguous remainder whose declared end overshoots the old block's end by H |
| Chain.MergeUndercounts | src/mem.c:151 | after a merge the block's declared end falls H bytes short of the absorbed block's end |
| Chain.OnlyOnce | src/mem.c:179-201 | a header occurs once in a chain |
| Chain.ChainFrame | src/mem.c:224 | a chain and its capacity sum survive in any store that agrees on its headers |
| Chain.LinkKeepsChain | src/mem.c:224 | linking a chain's last header to a disjoint chain yields one chain whose capacity sum is the sum of both |
| Chain.FlagKeepsChain | src/mem.c:239 | toggling is_free keeps the store closed, the chain and the capacity sum |
| Chain.RelinkKeepsClosed | src/mem.c:224 | redirecting a link to null or a stored header keeps the store closed |
| Allocator.GrowQuery | src/mem.c:217-219 | the request grow_heap makes: the query floored at 24, less the last block's capacity when that block is free |
| Allocator.GrowQueryNoWrap | src/mem.c:217-219 | when the last block is used or smaller than the floored query, the request is positive and is the part of the floored query the free last block does not hold |
| Allocator.PassStep | src/mem.c:192-200 | stepping past a block that does not fit keeps the search state, moves the cursor one position on, and keeps "no earlier block fits" |
| Allocator.MergeStep | src/mem.c:191-196 | a merge during the search keeps the search state with the same block under the cursor, which is then examined again |
| Allocator.MergeRun | src/mem.c:191-196 | a merge during the search keeps the search state and the cursor on the same block |
| Allocator.MergeKeepsFree | src/mem.c:147-156 | a merge keeps every original free block still listed free, with at least its capacity |
| Allocator.SplitStep | src/mem.c:185-190 | the split that ends a successful search keeps the search state and the found block's position |
| Allocator.FoundExit | src/mem.c:185-190 | after split_if_too_big on the fitting block the search outcome holds: the block is an original header, free, fits and is split exactly; every other original free block still listed is free with at least its capacity; a clash means the split point was listed in the original chain and the block links to it; without one the search state holds |
| Allocator.SplitKeepsFree | src/mem.c:105-128 | a split touches no original free block other than the split block and its split point, and a block splittable before the search is still splittable |
| Allocator.EndExit | src/mem.c:179-206 | a search that passed every block ends with its outcome: no clash, the last block returned, no fitting block in the merged chain and hence none in the original one |
| Allocator.RegionSegment | src/mem.c:222 | a fresh region, split or not, is a chain of one or two free blocks whose capacities sum to the region's capacity |
| Allocator.AppendFree | src/mem.c:224 | linking free blocks after the last block extends the chain, adds their capacity, and leaves the used blocks alone |
| Allocator.GrowLink | src/mem.c:216-224 | mapping, splitting and linking a region extends the heap by the region's capacity and only relinks the last block |
| Allocator.GrowMerge | src/mem.c:225 | the merge attempt of grow_heap keeps the heap an extension by the same capacity |
| Allocator.GrowAddr | src/mem.c:221 | where grow_heap's region lands: the placement of a request at its scaled hint |
| Allocator.GrowLinked | src/mem.c:216-224 | the store after grow_heap has mapped, split and linked the region |
| Allocator.GrowMap | src/mem.c:216-228 | the store after grow_heap, the merge attempt included |
| Allocator.GrowClashNeedsOverlap | src/mem.c:216-224 | the headers grow_heap writes lie inside the mapped region, so a region that overlaps no chain header causes no clash |
| Allocator.GrowTail | src/mem.c:221-222 | grow_heap writes one or two headers, the first at the region address |
| Allocator.GrowClosed | src/mem.c:216-228 | grow_heap keeps every stored link pointing at a stored header |
| Allocator.GrowExtends | src/mem.c:216-228 | without a clash, grow_heap extends the chain by at most two headers and adds the region's capacity (region_actual_size of the adjusted query, less H). It keeps the last block's flag; with fixed placement the region follows the last block unmerged |
| Allocator.TakeFound | src/mem.c:238-240 | the FOUND branch of memalloc (`Taken`): the marked block is an original header, used, fits, and is exactly max(sz, 24) when it was splittable before the search; no other original free block still listed lost capacity; a clashing split point was in the original chain; without a clash the chain is valid, the block is the only newly used one, no block before it fits and the capacity sum is kept |
| Allocator.GrowTaken | src/mem.c:243-253 | the growth branch's result composes with the search into `Grown`: the old chain is a prefix of the new one and only the old last block and the returned block became used since before the search |
| Allocator.TakenEither | src/mem.c:231-258 | either outcome of memalloc gives a used block in a closed store, a valid chain holding it when there is no clash, and growth only when no original free block fitted |
| Allocator.ReachEnd | src/mem.c:243-244 | before growth, the search left a valid chain of original headers with no fitting block, no original free block fitted, and the last block is used or smaller than the floored query |
| Allocator.MarkFound | src/mem.c:238-240 | marking the found block used keeps the chain and its capacity sum, and that block is the only newly used one |
| Allocator.Occupy | src/mem.c:239 | marking a block used keeps the store's addresses and makes the block used |
| Allocator.TakeAfterGrowth | src/mem.c:244-253 | the block memalloc returns after growth: the successor of `last` when there is one, `last` otherwise |
| Allocator.TakenMap | src/mem.c:244-253 | the store after memalloc marked `last` and, when it has one, its successor used |
| Allocator.TakenSound | src/mem.c:243-253 | after the growth branch, the returned block and the old last block are both used |
| Allocator.MarkLast | src/mem.c:246 | marking the old last block used after growth keeps the grown chain and its capacity, and its link tells whether a successor exists |
| Allocator.MarkNext | src/mem.c:249-252 | marking the successor used too keeps the chain and its capacity sum |
| Allocator.GrowTakeShape | src/mem.c:243-253 | after the growth branch the heap is a chain with the old head and the last block in place. The returned block is that block or its successor |
| Allocator.GrowTakeCounted | src/mem.c:243-253 | after the growth branch only the last block and the returned block became used, and the capacity sum grew by the region's capacity |
| Allocator.GrowTakeSound | src/mem.c:243-253 | the two statements above together |
| Allocator.FreeStart | src/mem.c:272-274 | marking the released block free starts the merge run with no merge done |
| Allocator.FreeStep | src/mem.c:278 | each successful merge of _free extends the run by the next header of the original chain and shortens the chain by one |
| Allocator.RunGrows | src/mem.c:137-151 | a free header at the declared end of the run absorbed so far extends the run |
| Allocator.AbsorbRun | src/mem.c:278 | one merge adds the absorbed header's capacity to the run's sum |
| Allocator.ReleaseKeepsUsed | src/mem.c:271-279 | _free leaves every other used block of the chain in the chain with its header untouched |
| Allocator.FreeDone | src/mem.c:271-279 | when no merge is possible any more, the release outcome `Released` holds |
| Allocator.Heap.BlockInit | src/mem.c:32-38 | block_init writes a free header with the given link and capacity_from_size of the size, and nothing else |
| Allocator.Heap.AllocRegion | src/mem.c:52-85 | the result is REGION_INVALID, with nothing written, exactly when the placement (the hint after a successful fixed placement, else the free placement's) is null. Otherwise the region is at the hint (extends) or elsewhere (not extends), is region_actual_size long and holds one free header of capacity size − H with a null link |
| Allocator.Heap.Init | src/mem.c:89-94 | heap_init returns the placement of a request at HEAP_START and fails exactly when the mapping fails, changing nothing. Otherwise it writes only one free header over the whole region there, and that block is the whole chain |
| Allocator.Heap.SplitIfTooBig | src/mem.c:105-128 | split_if_too_big reports whether it split, and it performs exactly the split rewrite (the floored query as capacity, a free remainder with the old link) or nothing |
| Allocator.Heap.TryMergeWithNext | src/mem.c:147-156 | try_merge_with_next succeeds exactly when the successor exists, both are free and contiguous, and then it performs exactly the merge rewrite; on failure nothing changes |
| Allocator.Heap.FindGoodOrLast | src/mem.c:169-207 | null start is CORRUPTED and changes nothing. Otherwise the outcome `Searched`: FOUND is a header of the original chain that is free, big enough, exactly max(sz, 24) when it was split, and exactly max(sz, 24) whenever it was splittable before the search. Every other original free block still listed is still free with at least its capacity. REACHED_END is the chain's last block, only when no free block of the original chain fits, with no fitting block left. A clash means the split point was listed in the original chain. Without one the chain stays valid with the same head, capacity sum and used blocks; the loop terminates |
| Allocator.Heap.GrowHeap | src/mem.c:216-228 | grow_heap returns `last` and performs exactly the growth rewrite (with the properties of GrowExtends) |
| Allocator.Heap.TryMemallocExisting | src/mem.c:211-214 | the same outcome `Searched` as find_good_or_last |
| Allocator.Heap.GrowAndTake | src/mem.c:243-253 | the growth branch returns a used block. The clash flag is exactly `GrowClash` of the heap it starts from. Without a clash the old chain is a prefix of the new one with the same head, the old last block is used and stays in place, and the returned block is it or its successor. Only these two became used, and the capacity sum grew by exactly the region's capacity |
| Allocator.Heap.Memalloc | src/mem.c:231-258 | null start gives null and changes nothing. Otherwise the returned block is used. The heap grows only when no free block of the original chain fits. Without growth (`Taken`) the store is the search's with the block marked used; the block is an original header, big enough, and exactly max(query, 24) when it was splittable; other original free blocks keep at least their capacity; a clash means its split point was in the original chain; without one the block is the only newly used one, no earlier block fits and the capacity sum is kept. With growth (`Grown`) the search left a valid chain of original headers with no fitting block, the clash flag is `GrowClash` of it, and without a clash that chain is a prefix of the new one, the old last block sits at its last position, only it and the returned block became used, and the capacity sum grew by exactly the region's capacity |
| Allocator.Heap.Malloc | src/mem.c:260-264 | _malloc returns a non-null contents pointer whose header is used, and memalloc's outcome holds for that header: `Taken` without growth (an original header, exactly max(query, 24) when it was splittable, the first fitting block, the only newly used one) and `Grown` with growth (the old chain a prefix of the new one, the capacity grown by exactly the region's). The heap grows only when no free block of the original chain fits. Without a clash the chain stays valid from HEAP_START with that header in it |
| Allocator.Heap.Free | src/mem.c:271-280 | _free(NULL) changes nothing. Otherwise the header is free and cannot merge further, and no other header changed. The chain lost exactly the n headers after it, all of them free and each starting at the declared end of the run before it, and stays valid with the same capacity sum. Its capacity is the sum over the absorbed run |
| Allocator.UsualMalloc | src/tests.c:7-19 | heap_init(15000) then _malloc(200) with fixed placement: the first block at HEAP_START is returned, used, with capacity exactly 200, and the heap is valid |

## Left out

- `mmap` and `getpagesize` become parameters and constants. What the two mapping attempts of one region return is the `PageMapper` parameter, and the page size is the constant 4096. `map_pages` is therefore not a member.
- `mem_internals.h`, `util.h` and `mem.h` are not part of this model. The header layout (H = 17, sizeof = 24), REGION_MIN_SIZE = 8192, HEAP_START = 0x04040000, REGION_INVALID, `region_is_invalid`, `size_max` and the size/capacity conversions are taken as these constants and definitions.
- `debug_block`, `debug` and `debug_heap` are not modelled; they only print.
- The bytes inside block contents are not modelled; the allocator never reads them.
- Headers are independent map entries. A header written at an address that overlaps another header's bytes without being equal to it does not disturb that other header in the model.
- `size_t` wrap-around is modelled for subtractions (`SizeSub`) only. Additions such as `query + H + BLOCK_MIN_CAPACITY` are unbounded, so queries near 2^64 are not modelled.
- Allocator.Heap.FindGoodOrLast: promises the chain invariant only when `clash` is false, because the code can write a split header over a live one.
- Allocator.Heap.TryMemallocExisting: promises the chain invariant only when `clash` is false, as the search does.
- Allocator.Heap.GrowHeap: requires that one of the two mapping attempts succeeds, because grow_heap uses the region without checking it. It also requires that a free `last` is smaller than the floored query, which memalloc guarantees after a search that found nothing. Otherwise the subtraction at src/mem.c:219 wraps, and the `size_t` product in round_pages would wrap as well; that product is not modelled.
- Allocator.GrowExtends: has the same requirement on a free `last`, for the same reason.
- Allocator.Heap.GrowAndTake: requires a successful mapping and a free `last` smaller than the floored query, as GrowHeap does. It promises the chain invariant only when `clash` is false. On this path the flag reports a region that overlaps a chain header. The provider parameter is an unconstrained address, while mmap never returns such a region, so the model does not exclude it.
- Allocator.Heap.Memalloc: requires a successful mapping. It promises the chain invariant only when `clash` is false and no "big enough" on the growth path. The code returns the last block or a region remainder there, whatever the query.
- Allocator.Heap.Malloc: requires a heap initialised at HEAP_START, because _malloc always searches from HEAP_START. A heap that heap_init placed elsewhere is not modelled.
- Allocator.Heap.Free: requires a pointer whose header is in the chain; releasing any other pointer is undefined in C.
- Chain.SplitMap, Allocator.Heap.SplitIfTooBig, Allocator.Heap.FindGoodOrLast, Allocator.Heap.Malloc: the extent of each mapped region is not tracked, so a header written past the end of its region is neither detected nor flagged. For example, heap_init(15000); _malloc(24); _malloc(24); _malloc(16278) writes a split header at HEAP_START + 16377 in a 16384-byte region.
- Concurrency is not modelled; the code has none.

=== FILE: allocator.dfy ===
/** The allocator engine over the header store: region set-up, in-place
    splitting and merging, the first-fit search, heap growth and the public
    allocate and release entry points. */
module Allocator {
  import opened Layout
  import opened Chain

  /** The outcome of find_good_or_last. */
  datatype SearchResult = Found(block: nat) | ReachedEnd(block: nat) | Corrupted

  /** The used blocks of (h0, c0) stay listed and used with their capacity,
      and every used block of (h1, c1) either was used before or is `a` or
      `b`. */
  ghost predicate UsedGrown(h0: map<nat, Header>, c0: seq<nat>, h1: map<nat, Header>, c1: seq<nat>, a: nat, b: nat)
  {
    (forall x {:trigger x in c0} :: x in c0 && x in h0 && !h0[x].isFree ==>
       x in c1 && x in h1 && !h1[x].isFree && h1[x].capacity == h0[x].capacity) &&
    (forall x {:trigger x in c1} :: x in c1 && x in h1 && !h1[x].isFree ==> x == a || x == b || (x in c0 && x in h0 && !h0[x].isFree))
  }

  /** The request grow_heap passes to the region provider: the floored query,
      less the last block's capacity when that block is free (a `size_t`
      subtraction). */
  function GrowQuery(lastHdr: Header, query: nat): nat
  {
    var q := Max(query, BLOCK_MIN_CAPACITY);
    if lastHdr.isFree then SizeSub(q, lastHdr.capacity) else q
  }

  /** When `last` is used, or free but smaller than the floored query (as
      after a search that found nothing), the request grow_heap makes does
      not wrap: it is positive and is the part of the floored query that the
      free last block does not already hold. */
  lemma GrowQueryNoWrap(lastHdr: Header, query: nat)
    requires !lastHdr.isFree || lastHdr.capacity < Max(query, BLOCK_MIN_CAPACITY)
    ensures 0 < GrowQuery(lastHdr, query) <= Max(query, BLOCK_MIN_CAPACITY)
    ensures GrowQuery(lastHdr, query) + (if lastHdr.isFree then lastHdr.capacity else 0) == Max(query, BLOCK_MIN_CAPACITY)
  {
  }

  /** No block before position k of chain c fits a request of sz bytes. */
  ghost predicate NoneFitsBefore(h: map<nat, Header>, c: seq<nat>, k: nat, sz: nat)
    requires k <= |c| && forall x :: x in c ==> x in h
  {
    forall j :: 0 <= j < k ==> !(h[c[j]].isFree && BlockIsBigEnough(sz, h[c[j]]))
  }

  /** Some free block at or after position k of chain c fits a request of
      sz bytes. */
  ghost predicate FitsFrom(h: map<nat, Header>, c: seq<nat>, k: nat, sz: nat)
  {
    exists j :: k <= j < |c| && c[j] in h && h[c[j]].isFree && BlockIsBigEnough(sz, h[c[j]])
  }

  /** Every header listed in c is listed in cOld. */
  ghost predicate Within(c: seq<nat>, cOld: seq<nat>)
  {
    forall x :: x in c ==> x in cOld
  }

  /** Every free header of the original chain (hOld, cOld) that c still
      lists, other than `a` and `b` (NULL when there is no exception), is
      still free and has at least its original capacity. */
  ghost predicate FreeKept(hOld: map<nat, Header>, cOld: seq<nat>, h: map<nat, Header>, c: seq<nat>, a: nat, b: nat)
  {
    forall x :: x in c && x in cOld && x != a && x != b && x in hOld && hOld[x].isFree ==>
      x in h && h[x].isFree && h[x].capacity >= hOld[x].capacity
  }

  /** Dropping the successor of position k keeps a chain within cOld. */
  lemma AbsorbedWithin(c: seq<nat>, k: nat, cOld: seq<nat>)
    requires k + 1 < |c| && Within(c, cOld)
    ensures Within(Absorbed(c, k), cOld)
  {
    forall x | x in Absorbed(c, k) ensures x in cOld {
      var j :| 0 <= j < |Absorbed(c, k)| && Absorbed(c, k)[j] == x;
      if j <= k { assert c[j] == x; } else { assert c[j + 1] == x; }
    }
  }

  /** What the search maintains at position k: a valid chain with the
      original head and capacity sum, no used block touched, none of the
      first k blocks fitting a request of sz bytes and, when some free block
      of the original chain fits, a fitting free block still at or after k
      (merges only grow free blocks). */
  ghost predicate SearchRun(hOld: map<nat, Header>, cOld: seq<nat>, h: map<nat, Header>, c: seq<nat>,
                            head: nat, k: nat, sz: nat)
  {
    IsChain(hOld, cOld) && Closed(h) && IsChain(h, c) &&
    0 < |c| && c[0] == head && k <= |c| &&
    Caps(h, c) == Caps(hOld, cOld) && UsedKept(hOld, cOld, h, c) &&
    NoneFitsBefore(h, c, k, sz) &&
    (FitsFrom(hOld, cOld, 0, sz) ==> FitsFrom(h, c, k, sz))
  }

  /** The cursor of the search at position k: `tmp` is the block at k (null
      past the end) and `last` the block before it (the head at the start). */
  ghost predicate Cursor(c: seq<nat>, k: nat, tmp: nat, last: nat)
  {
    0 < |c| && k <= |c| && tmp == (if k < |c| then c[k] else NULL) &&
    (tmp == NULL <==> k == |c|) && last == c[if k == 0 then 0 else k - 1]
  }

  /** The state of the search loop: what the search maintains at position
      k, the cursor at k, a chain listing only original headers, and no
      original free block shrunk. */
  ghost predicate Scanning(hOld: map<nat, Header>, cOld: seq<nat>, h: map<nat, Header>, c: seq<nat>,
                           head: nat, k: nat, sz: nat, tmp: nat, last: nat)
  {
    SearchRun(hOld, cOld, h, c, head, k, sz) && Cursor(c, k, tmp, last) && Within(c, cOld) &&
    FreeKept(hOld, cOld, h, c, NULL, NULL)
  }

  /** The cursor of a running search points at a stored header of the chain. */
  lemma ScanAt(hOld: map<nat, Header>, cOld: seq<nat>, h: map<nat, Header>, c: seq<nat>,
               head: nat, k: nat, sz: nat, tmp: nat, last: nat)
    requires Scanning(hOld, cOld, h, c, head, k, sz, tmp, last) && tmp != NULL
    ensures k < |c| && c[k] == tmp && tmp in h
  {
    assert c[k] in c;
  }

  /** Passing a block that does not fit moves the search one position on. */
  lemma PassStep(hOld: map<nat, Header>, cOld: seq<nat>, h: map<nat, Header>, c: seq<nat>, head: nat, k: nat, sz: nat,
                 tmp: nat, last: nat)
    requires Scanning(hOld, cOld, h, c, head, k, sz, tmp, last) && tmp != NULL
    requires !(h[tmp].isFree && BlockIsBigEnough(sz, h[tmp]))
    ensures Scanning(hOld, cOld, h, c, head, k + 1, sz, h[tmp].next, tmp)
  {
    if FitsFrom(hOld, cOld, 0, sz) {
      var j :| k <= j < |c| && c[j] in h && h[c[j]].isFree && BlockIsBigEnough(sz, h[c[j]]);
      assert j != k;
    }
    assert LinkedAt(h, c, k);
    if k + 1 < |c| {
      assert LinkedAt(h, c, k + 1);
    }
  }

  /** One merge step of the search at position k keeps the search state,
      with the same block at position k. */
  lemma MergeStep(hOld: map<nat, Header>, cOld: seq<nat>, h0: map<nat, Header>, c0: seq<nat>, head: nat, k: nat, sz: nat,
                  tmp: nat, last: nat)
    requires Scanning(hOld, cOld, h0, c0, head, k, sz, tmp, last) && tmp != NULL
    requires CanMerge(h0, tmp)
    ensures k + 1 < |c0|
    ensures Scanning(hOld, cOld, MergeMap(h0, tmp), Absorbed(c0, k), head, k, sz, tmp, last)
  {
    MergeRun(hOld, cOld, h0, c0, head, k, sz, tmp, last);
    AbsorbedWithin(c0, k, cOld);
    MergeKeepsFree(hOld, cOld, h0, c0, k);
  }

  /** One merge step of the search at position k keeps what the search
      maintains and the cursor, with the same block at position k. */
  lemma MergeRun(hOld: map<nat, Header>, cOld: seq<nat>, h0: map<nat, Header>, c0: seq<nat>, head: nat, k: nat, sz: nat,
                 tmp: nat, last: nat)
    requires SearchRun(hOld, cOld, h0, c0, head, k, sz) && Cursor(c0, k, tmp, last) && tmp != NULL
    requires CanMerge(h0, tmp)
    ensures k + 1 < |c0| && c0[k] == tmp
    ensures SearchRun(hOld, cOld, MergeMap(h0, tmp), Absorbed(c0, k), head, k, sz)
    ensures Cursor(Absorbed(c0, k), k, tmp, last)
  {
    MergeKeepsClosed(h0, c0[k]);
    MergeKeepsChain(h0, c0, k);
    MergeKeepsCaps(h0, c0, k);
    MergeKeepsUsed(h0, c0, k);
    var h1, c1 := MergeMap(h0, c0[k]), Absorbed(c0, k);
    UsedKeptTrans(hOld, cOld, h0, c0, h1, c1);
    OnlyOnce(h0, c0, k);
    forall j | 0 <= j < k ensures c1[j] == c0[j] && c0[j] != c0[k] {
      assert c0[j] in c0[..k];
    }
    if FitsFrom(hOld, cOld, 0, sz) {
      var j :| k <= j < |c0| && c0[j] in h0 && h0[c0[j]].isFree && BlockIsBigEnough(sz, h0[c0[j]]);
      if j <= k + 1 {
        assert c1[k] == tmp && h1[tmp].isFree && BlockIsBigEnough(sz, h1[tmp]);
      } else {
        assert c1[j - 1] == c0[j] && c0[j] != tmp && h1[c0[j]] == h0[c0[j]];
      }
    }
  }

  /** A merge at position k grows the free block there and drops its
      successor, so no original free block still listed shrinks. */
  lemma MergeKeepsFree(hOld: map<nat, Header>, cOld: seq<nat>, h0: map<nat, Header>, c0: seq<nat>, k: nat)
    requires FreeKept(hOld, cOld, h0, c0, NULL, NULL) && k + 1 < |c0| && c0[k] in h0
    ensures FreeKept(hOld, cOld, MergeMap(h0, c0[k]), Absorbed(c0, k), NULL, NULL)
  {
    var h1, c1 := MergeMap(h0, c0[k]), Absorbed(c0, k);
    forall x | x in c1 && x in cOld && x != NULL && x in hOld && hOld[x].isFree
      ensures x in h1 && h1[x].isFree && h1[x].capacity >= hOld[x].capacity
    {
      var j :| 0 <= j < |c1| && c1[j] == x;
      assert x in c0 by { if j <= k { assert c0[j] == x; } else { assert c0[j + 1] == x; } }
    }
  }

  /** The split that ends a successful search at position k, when its split
      point is not already in the chain, keeps what the search maintains. */
  lemma SplitStep(hOld: map<nat, Header>, cOld: seq<nat>, h0: map<nat, Header>, c0: seq<nat>, head: nat, k: nat, sz: nat)
    requires SearchRun(hOld, cOld, h0, c0, head, k, sz) && k < |c0| && CanSplit(h0, c0[k], sz)
    requires SplitPoint(c0[k], sz) !in c0
    ensures var c1 := Inserted(c0, k, SplitPoint(c0[k], sz));
            SearchRun(hOld, cOld, SplitMap(h0, c0[k], sz), c1, head, k, sz) && c1[k] == c0[k]
  {
    SplitKeepsClosed(h0, c0[k], sz);
    SplitKeepsChain(h0, c0, k, sz);
    SplitKeepsCaps(h0, c0, k, sz);
    SplitKeepsUsed(h0, c0, k, sz);
    var r := SplitPoint(c0[k], sz);
    var h1, c1 := SplitMap(h0, c0[k], sz), Inserted(c0, k, r);
    UsedKeptTrans(hOld, cOld, h0, c0, h1, c1);
    OnlyOnce(h0, c0, k);
    forall j | 0 <= j < k ensures c1[j] == c0[j] && c0[j] != c0[k] && c0[j] != r {
      assert c0[j] in c0[..k];
      assert c0[j] in c0;
    }
    assert c1[k] == c0[k] && h1[c0[k]].isFree && BlockIsBigEnough(sz, h1[c0[k]]);
  }

  /** What find_good_or_last leaves behind when started at the head of the
      valid chain (hOld, cOld) with a request of sz bytes: the store is
      closed and the search did not report corruption.
      - `clash` is set only when the split of the found block wrote its new
        header at an address listed in the original chain; otherwise what
        the search maintains holds at position `at`.
      - The search reaches the end only when no free block of the original
        chain fits, and then the chain lists only original headers and
        `res.block` is its last one.
      - A found block is a header of the original chain, sits at `at`, is
        free and fits, and was split to the floored request unless it was
        too small to split; when it was splittable before the search, it
        was split.
      - Every other free block of the original chain still listed is still
        free with at least its capacity (the split point is written anew). */
  ghost predicate Searched(hOld: map<nat, Header>, cOld: seq<nat>, h: map<nat, Header>, c: seq<nat>, head: nat, sz: nat,
                           res: SearchResult, at: nat, clash: bool)
  {
    Closed(h) && !res.Corrupted? &&
    FreeKept(hOld, cOld, h, c, if res.Found? then res.block else NULL, if res.Found? then SplitPoint(res.block, sz) else NULL) &&
    (res.Found? ==>
       res.block in cOld && res.block in h &&
       (CanSplit(hOld, res.block, sz) ==> h[res.block].capacity == Max(sz, BLOCK_MIN_CAPACITY))) &&
    (clash ==> res.Found? && res.block in h &&
               h[res.block].next == SplitPoint(res.block, sz) && SplitPoint(res.block, sz) in cOld) &&
    (!clash ==> SearchRun(hOld, cOld, h, c, head, at, sz)) &&
    (FitsFrom(hOld, cOld, 0, sz) ==> res.Found?) &&
    (res.Found? ==>
       at < |c| && c[at] == res.block && res.block != NULL && res.block in h &&
       h[res.block].isFree && BlockIsBigEnough(sz, h[res.block]) &&
       (h[res.block].capacity == Max(sz, BLOCK_MIN_CAPACITY) ||
        !BlockSplittable(h[res.block], Max(sz, BLOCK_MIN_CAPACITY)))) &&
    (res.ReachedEnd? ==> at == |c| && 0 < |c| && res.block == c[|c| - 1] && Within(c, cOld))
  }

  /** The FOUND exit of the search at position k, after split_if_too_big on
      the fitting block: the search outcome holds for that block. */
  lemma FoundExit(hOld: map<nat, Header>, cOld: seq<nat>, h0: map<nat, Header>, c0: seq<nat>, head: nat, k: nat,
                  sz: nat, b: nat, last: nat, clash: bool, c1: seq<nat>)
    requires Scanning(hOld, cOld, h0, c0, head, k, sz, b, last) && b != NULL
    requires h0[b].isFree && BlockIsBigEnough(sz, h0[b])
    requires clash == (CanSplit(h0, b, sz) && SplitPoint(b, sz) in c0)
    requires c1 == if CanSplit(h0, b, sz) then Inserted(c0, k, SplitPoint(b, sz)) else c0
    ensures Searched(hOld, cOld, SplitMap(h0, b, sz), c1, head, sz, Found(b), k, clash)
  {
    assert b in c0;
    SplitKeepsClosed(h0, b, sz);
    SplitKeepsFree(hOld, cOld, h0, c0, k, sz, c1);
    if CanSplit(h0, b, sz) && !clash {
      SplitStep(hOld, cOld, h0, c0, head, k, sz);
    }
  }

  /** The split of the fitting block at position k rewrites only that
      block and the split point, so no other original free block still
      listed shrinks; and a block splittable before the search still is. */
  lemma SplitKeepsFree(hOld: map<nat, Header>, cOld: seq<nat>, h0: map<nat, Header>, c0: seq<nat>, k: nat, sz: nat,
                       c1: seq<nat>)
    requires FreeKept(hOld, cOld, h0, c0, NULL, NULL) && NULL !in cOld && k < |c0| && c0[k] in h0 && c0[k] in cOld
    requires c1 == if CanSplit(h0, c0[k], sz) then Inserted(c0, k, SplitPoint(c0[k], sz)) else c0
    ensures FreeKept(hOld, cOld, SplitMap(h0, c0[k], sz), c1, c0[k], SplitPoint(c0[k], sz))
    ensures CanSplit(hOld, c0[k], sz) ==> CanSplit(h0, c0[k], sz)
  {
    var b := c0[k];
    var r, h1 := SplitPoint(b, sz), SplitMap(h0, b, sz);
    if CanSplit(hOld, b, sz) {
      assert b in c0;
    }
    forall x | x in c1 && x in cOld && x != b && x != r && x in hOld && hOld[x].isFree
      ensures x in h1 && h1[x].isFree && h1[x].capacity >= hOld[x].capacity
    {
      assert x in c0 by {
        if CanSplit(h0, b, sz) {
          var j :| 0 <= j < |c1| && c1[j] == x;
          if j <= k { assert c0[j] == x; } else if j > k + 1 { assert c0[j - 1] == x; }
        }
      }
    }
  }

  /** The REACHED_END exit of the search: every block was passed, so no
      block of the original chain fits and `last` is the chain's last block. */
  lemma EndExit(hOld: map<nat, Header>, cOld: seq<nat>, h: map<nat, Header>, c: seq<nat>, head: nat, k: nat,
                sz: nat, last: nat)
    requires Scanning(hOld, cOld, h, c, head, k, sz, NULL, last)
    ensures Searched(hOld, cOld, h, c, head, sz, ReachedEnd(last), k, false)
  {
  }

  /** Marking one of the two newly used blocks used keeps the relation. */
  lemma MarkUsed(h0: map<nat, Header>, c0: seq<nat>, h1: map<nat, Header>, c1: seq<nat>, a: nat, b: nat, x: nat)
    requires UsedGrown(h0, c0, h1, c1, a, b) && x in h1 && (x == a || x == b)
    ensures UsedGrown(h0, c0, h1[x := h1[x].(isFree := false)], c1, a, b)
  {
  }

  /** A freshly mapped region, split to `q` or not, is a valid chain of one
      or two free blocks whose capacities sum to the region's capacity. */
  lemma RegionSegment(h1: map<nat, Header>, a: nat, q: nat, t: seq<nat>)
    requires Closed(h1) && a in h1 && a != NULL && h1[a].next == NULL && h1[a].isFree
    requires t == if CanSplit(h1, a, q) then [a, SplitPoint(a, q)] else [a]
    ensures IsChain(SplitMap(h1, a, q), t)
    ensures Caps(SplitMap(h1, a, q), t) == h1[a].capacity
    ensures forall x :: x in t ==> x in SplitMap(h1, a, q) && SplitMap(h1, a, q)[x].isFree
  {
    var h2 := SplitMap(h1, a, q);
    assert LinkedAt(h1, [a], 0);
    assert IsChain(h1, [a]);
    CapsPair(h1, a, a);
    if CanSplit(h1, a, q) {
      SplitKeepsChain(h1, [a], 0, q);
      SplitKeepsCaps(h1, [a], 0, q);
      assert Inserted([a], 0, SplitPoint(a, q)) == t;
    } else {
      assert h2 == h1;
    }
  }

  /** Linking a chain of free blocks, disjoint from a valid chain, after that
      chain's last block gives a valid chain with the old one as prefix, the
      two capacity sums added and no used block touched. */
  lemma AppendFree(h0: map<nat, Header>, c0: seq<nat>, h2: map<nat, Header>, t: seq<nat>)
    requires IsChain(h0, c0) && |c0| > 0 && |t| > 0 && IsChain(h2, t)
    requires forall x :: x in c0 ==> x !in t
    requires forall x :: x in c0 ==> x in h2 && h2[x] == h0[x]
    requires forall x :: x in t ==> x in h2 && h2[x].isFree
    ensures var last := c0[|c0| - 1];
            var h3 := h2[last := h2[last].(next := t[0])];
            IsChain(h3, c0 + t) && (c0 + t)[..|c0|] == c0 &&
            Caps(h3, c0 + t) == Caps(h0, c0) + Caps(h2, t) &&
            UsedKept(h0, c0, h3, c0 + t)
  {
    var last := c0[|c0| - 1];
    var h3 := h2[last := h2[last].(next := t[0])];
    ChainFrame(h0, h2, c0);
    LinkKeepsChain(h2, c0, t);
    assert (c0 + t)[..|c0|] == c0;
    assert last in c0;
    forall x | x in c0 + t && x in h3 && !h3[x].isFree ensures x in c0 && x in h0 && !h0[x].isFree {
      assert x !in t;
    }
  }

  /** Mapping a region, splitting it and linking it after the last block of
      a valid chain extends the heap by the region's capacity, when neither
      the region nor its split point is already in the chain. */
  lemma GrowLink(h0: map<nat, Header>, c0: seq<nat>, h1: map<nat, Header>, h2: map<nat, Header>,
                 h3: map<nat, Header>, a: nat, q: nat, cap: nat, t: seq<nat>)
    requires Closed(h0) && IsChain(h0, c0) && |c0| > 0 && a != NULL
    requires h1 == h0[a := Header(NULL, cap, true)]
    requires h2 == SplitMap(h1, a, q)
    requires t == if CanSplit(h1, a, q) then [a, SplitPoint(a, q)] else [a]
    requires forall x :: x in c0 ==> x !in t
    requires h3 == h2[c0[|c0| - 1] := h2[c0[|c0| - 1]].(next := a)]
    ensures Extended(h0, c0, h3, c0 + t, cap)
    ensures h3[c0[|c0| - 1]] == h0[c0[|c0| - 1]].(next := a)
  {
    var last := c0[|c0| - 1];
    assert last in c0 && last !in t;
    SplitKeepsClosed(h1, a, q);
    RelinkKeepsClosed(h2, last, a);
    RegionSegment(h1, a, q, t);
    AppendFree(h0, c0, h2, t);
  }

  /** Merging the old last block into the appended region keeps the heap an
      extension by the same capacity. */
  lemma GrowMerge(h0: map<nat, Header>, c0: seq<nat>, h3: map<nat, Header>, c3: seq<nat>, cap: nat)
    requires Extended(h0, c0, h3, c3, cap) && CanMerge(h3, c0[|c0| - 1])
    ensures |c0| < |c3|
    ensures Extended(h0, c0, MergeMap(h3, c0[|c0| - 1]), Absorbed(c3, |c0| - 1), cap)
  {
    var i := |c0| - 1;
    assert c3[i] == c3[..|c0|][i] == c0[i];
    MergeKeepsClosed(h3, c3[i]);
    MergeKeepsChain(h3, c3, i);
    MergeKeepsCaps(h3, c3, i);
    MergeKeepsUsed(h3, c3, i);
    UsedKeptTrans(h0, c0, h3, c3, MergeMap(h3, c3[i]), Absorbed(c3, i));
    assert Absorbed(c3, i)[..|c0|] == c0;
  }

  /** Where the region of grow_heap lands: the placement of a request at the
      hint after `last`. */
  function GrowAddr(h0: map<nat, Header>, last: nat, os: PageMapper): nat
    requires last in h0
  {
    Placement(GrowHint(last, h0[last]), os)
  }

  /** The store after grow_heap has mapped and split the region and linked
      it after `last`, before the merge attempt. */
  function GrowLinked(h0: map<nat, Header>, last: nat, query: nat, os: PageMapper): (h: map<nat, Header>)
    requires last in h0
    ensures last in h
  {
    var q := GrowQuery(h0[last], query);
    var a := GrowAddr(h0, last, os);
    var h2 := SplitMap(h0[a := Header(NULL, RegionActualSize(q) - H, true)], a, q);
    h2[last := h2[last].(next := a)]
  }

  /** The store after grow_heap. */
  function GrowMap(h0: map<nat, Header>, last: nat, query: nat, os: PageMapper): map<nat, Header>
    requires last in h0
  {
    MergeMap(GrowLinked(h0, last, query, os), last)
  }

  /** The headers grow_heap writes in the region: its start and, when the
      region is split, the split point. */
  function GrowTail(h0: map<nat, Header>, last: nat, query: nat, os: PageMapper): (t: seq<nat>)
    requires last in h0
    ensures 0 < |t| <= 2 && t[0] == GrowAddr(h0, last, os)
  {
    var q := GrowQuery(h0[last], query);
    var a := GrowAddr(h0, last, os);
    if CanSplit(h0[a := Header(NULL, RegionActualSize(q) - H, true)], a, q) then [a, SplitPoint(a, q)] else [a]
  }

  /** The chain after grow_heap: the region's headers appended, and the
      first of them absorbed when `last` merged with it. */
  ghost function GrowChain(h0: map<nat, Header>, c0: seq<nat>, last: nat, query: nat, os: PageMapper): seq<nat>
    requires last in h0 && |c0| > 0
  {
    var c3 := c0 + GrowTail(h0, last, query, os);
    if CanMerge(GrowLinked(h0, last, query, os), last) then Absorbed(c3, |c0| - 1) else c3
  }

  /** The region or its split point coincides with a header of the chain. */
  ghost predicate GrowClash(h0: map<nat, Header>, c0: seq<nat>, last: nat, query: nat, os: PageMapper)
    requires last in h0
  {
    exists x :: x in GrowTail(h0, last, query, os) && x in c0
  }

  /** The headers grow_heap writes lie inside the region it maps, so they
      can coincide with a chain header only when the region placed by the
      provider overlaps one. */
  lemma GrowClashNeedsOverlap(h0: map<nat, Header>, c0: seq<nat>, last: nat, query: nat, os: PageMapper)
    requires last in h0
    requires forall x :: x in c0 ==>
               !(GrowAddr(h0, last, os) <= x < GrowAddr(h0, last, os) + RegionActualSize(GrowQuery(h0[last], query)))
    ensures !GrowClash(h0, c0, last, query, os)
  {
    var q := GrowQuery(h0[last], query);
    var a := GrowAddr(h0, last, os);
    var t := GrowTail(h0, last, query, os);
    forall x | x in t ensures a <= x < a + RegionActualSize(q) {
      if x != a {
        assert CanSplit(h0[a := Header(NULL, RegionActualSize(q) - H, true)], a, q);
        assert x == SplitPoint(a, q);
      }
    }
  }

  /** grow_heap keeps every stored link pointing at a stored header. */
  lemma GrowClosed(h0: map<nat, Header>, last: nat, query: nat, os: PageMapper)
    requires Closed(h0) && last in h0
    ensures last in GrowMap(h0, last, query, os) && Closed(GrowMap(h0, last, query, os))
  {
    var q := GrowQuery(h0[last], query);
    var a := GrowAddr(h0, last, os);
    var h1 := h0[a := Header(NULL, RegionActualSize(q) - H, true)];
    SplitKeepsClosed(h1, a, q);
    RelinkKeepsClosed(SplitMap(h1, a, q), last, a);
    MergeKeepsClosed(GrowLinked(h0, last, query, os), last);
  }

  /** Unless the region clashes with the chain, grow_heap extends the heap by
      the capacity of the region mapped for the adjusted query, leaves the
      flag of `last` alone, and, when the fixed placement succeeds, appends
      the region at the hint: that hint lies past the end of `last`, so the
      merge never happens then. */
  lemma GrowExtends(h0: map<nat, Header>, c0: seq<nat>, last: nat, query: nat, os: PageMapper,
                    h: map<nat, Header>, c: seq<nat>)
    requires Closed(h0) && IsChain(h0, c0) && |c0| > 0 && last == c0[|c0| - 1]
    requires os.fixedOk || os.fallback != NULL
    requires !h0[last].isFree || h0[last].capacity < Max(query, BLOCK_MIN_CAPACITY)
    requires !GrowClash(h0, c0, last, query, os)
    requires h == GrowMap(h0, last, query, os) && c == GrowChain(h0, c0, last, query, os)
    ensures last in h0 && last in h
    ensures Extended(h0, c0, h, c, RegionActualSize(GrowQuery(h0[last], query)) - H)
    ensures h[last].isFree == h0[last].isFree
    ensures os.fixedOk ==> |c| > |c0| && c[|c0|] == GrowHint(last, h0[last])
  {
    assert LinkedAt(h0, c0, |c0| - 1);
    var q := GrowQuery(h0[last], query);
    var a := GrowAddr(h0, last, os);
    var cap := RegionActualSize(q) - H;
    var h1 := h0[a := Header(NULL, cap, true)];
    var h2 := SplitMap(h1, a, q);
    var h3 := GrowLinked(h0, last, query, os);
    var t := GrowTail(h0, last, query, os);
    GrowHintPastBlockEnd(last, h0[last]);
    assert a != NULL;
    assert forall x :: x in c0 ==> x !in t;
    GrowLink(h0, c0, h1, h2, h3, a, q, cap, t);
    if CanMerge(h3, last) {
      GrowMerge(h0, c0, h3, c0 + t, cap);
    }
  }

  /** Keeping the used blocks and then marking some used composes. */
  lemma KeptThenGrown(h0: map<nat, Header>, c0: seq<nat>, h1: map<nat, Header>, c1: seq<nat>,
                      h2: map<nat, Header>, c2: seq<nat>, a: nat, b: nat)
    requires UsedKept(h0, c0, h1, c1) && UsedGrown(h1, c1, h2, c2, a, b)
    ensures UsedGrown(h0, c0, h2, c2, a, b)
  {
  }

  /** Marking the block a search found used: the chain and its capacity sum
      stay, it is the only newly used block, and the blocks before it still
      do not fit. */
  lemma MarkFound(hOld: map<nat, Header>, cOld: seq<nat>, h: map<nat, Header>, c: seq<nat>, at: nat, sz: nat)
    requires Closed(h) && IsChain(h, c) && UsedKept(hOld, cOld, h, c) && at < |c|
    requires NoneFitsBefore(h, c, at, sz)
    ensures var h' := h[c[at] := h[c[at]].(isFree := false)];
            Closed(h') && IsChain(h', c) && Caps(h', c) == Caps(h, c) &&
            UsedGrown(hOld, cOld, h', c, c[at], c[at]) && NoneFitsBefore(h', c, at, sz)
  {
    var b := c[at];
    FlagKeepsChain(h, c, b, false);
    MarkUsed(hOld, cOld, h, c, b, b, b);
    forall j | 0 <= j < at ensures c[j] != b {
    }
  }

  /** What memalloc leaves behind when the search, started at `head` on the
      valid chain (hOld, cOld), found the block `r` and left the store `hs`
      with chain `cs`; `h` and `c` are the final store and chain.
      - The final store is the search's with `r` marked used, and the chain
        is the search's.
      - `r` is a header of the original chain; it fits, and it was split to
        the floored request unless it was too small to split; when it was
        splittable before the search, it was split.
      - Every other free block of the original chain still listed is still
        free with at least its capacity.
      - A clash means `r` now links to a split point the original chain
        listed. Without one the chain is valid from `head` with `r` at
        `at`, no block before it fits, `r` is the only newly used block and
        the capacity sum is unchanged. */
  ghost predicate Taken(hOld: map<nat, Header>, cOld: seq<nat>, hs: map<nat, Header>, cs: seq<nat>,
                        h: map<nat, Header>, c: seq<nat>, head: nat, sz: nat, r: nat, at: nat, clash: bool)
  {
    r != NULL && r in hs && h == Occupy(hs, r) && c == cs && Closed(h) && r in cOld &&
    BlockIsBigEnough(sz, h[r]) &&
    (h[r].capacity == Max(sz, BLOCK_MIN_CAPACITY) ||
     h[r].capacity < Max(sz, BLOCK_MIN_CAPACITY) + H + BLOCK_MIN_CAPACITY) &&
    (CanSplit(hOld, r, sz) ==> h[r].capacity == Max(sz, BLOCK_MIN_CAPACITY)) &&
    FreeKept(hOld, cOld, hs, cs, r, SplitPoint(r, sz)) &&
    (clash ==> SplitPoint(r, sz) in cOld && h[r].next == SplitPoint(r, sz)) &&
    (!clash ==>
       IsChain(hOld, cOld) && IsChain(h, c) && 0 < |c| && c[0] == head && at < |c| && c[at] == r &&
       UsedGrown(hOld, cOld, h, c, r, r) && NoneFitsBefore(h, c, at, sz) && Caps(h, c) == Caps(hOld, cOld))
  }

  /** The FOUND branch of memalloc: marking the block the search found used
      gives the outcome `Taken`. */
  lemma TakeFound(hOld: map<nat, Header>, cOld: seq<nat>, h: map<nat, Header>, c: seq<nat>, head: nat, sz: nat,
                  b: nat, at: nat, clash: bool)
    requires Searched(hOld, cOld, h, c, head, sz, Found(b), at, clash)
    ensures b in h && Taken(hOld, cOld, h, c, Occupy(h, b), c, head, sz, b, at, clash)
  {
    if !clash {
      MarkFound(hOld, cOld, h, c, at, sz);
    }
  }

  /** The REACHED_END branch of memalloc before growth: the search passed
      every block of a valid chain of original headers, none of which fits,
      and no free block of the original chain fitted either. In particular
      the last block is used or smaller than the floored request. */
  lemma ReachEnd(hOld: map<nat, Header>, cOld: seq<nat>, h: map<nat, Header>, c: seq<nat>, head: nat, sz: nat,
                 last: nat, at: nat, clash: bool)
    requires Searched(hOld, cOld, h, c, head, sz, ReachedEnd(last), at, clash)
    ensures !clash && at == |c| && 0 < |c| && last == c[|c| - 1] && last in h
    ensures Closed(h) && IsChain(h, c) && c[0] == head && Within(c, cOld)
    ensures SearchRun(hOld, cOld, h, c, head, |c|, sz) && !FitsFrom(hOld, cOld, 0, sz)
    ensures !h[last].isFree || h[last].capacity < Max(sz, BLOCK_MIN_CAPACITY)
  {
    assert last in c;
    assert NoneFitsBefore(h, c, |c|, sz);
  }

  /** What memalloc leaves behind when the search, started at `head` on the
      valid chain (hOld, cOld), reached the end of the store `hs` with chain
      `cs` and the heap grew; `h` and `c` are the final store and chain.
      - No free block of the original chain fits; the search left a valid
        chain of original headers in which no block fits, and `clash` is
        exactly `GrowClash` of its last block.
      - The returned block `r` is used and the store closed.
      - Without a clash the chain is valid from `head` and starts with
        `cs`; the old last block stays at `lastAt` and is used; `r` is it or
        its successor; only these two became used; and the capacity sum grew
        by the capacity of the region mapped for the adjusted request. */
  ghost predicate Grown(hOld: map<nat, Header>, cOld: seq<nat>, hs: map<nat, Header>, cs: seq<nat>,
                        h: map<nat, Header>, c: seq<nat>, head: nat, sz: nat, os: PageMapper,
                        r: nat, at: nat, lastAt: nat, clash: bool)
  {
    SearchRun(hOld, cOld, hs, cs, head, |cs|, sz) && Within(cs, cOld) && cs[|cs| - 1] in hs &&
    !FitsFrom(hOld, cOld, 0, sz) && clash == GrowClash(hs, cs, cs[|cs| - 1], sz, os) &&
    r != NULL && r in h && !h[r].isFree && Closed(h) &&
    (!clash ==>
       IsChain(h, c) && 0 < |c| && c[0] == head &&
       lastAt == |cs| - 1 && |cs| <= |c| && c[..|cs|] == cs &&
       lastAt <= at <= lastAt + 1 && at < |c| && c[at] == r && (at == lastAt <==> lastAt == |c| - 1) &&
       !h[c[lastAt]].isFree && UsedGrown(hOld, cOld, h, c, r, c[lastAt]) &&
       Caps(h, c) == Caps(hs, cs) + (RegionActualSize(GrowQuery(hs[cs[|cs| - 1]], sz)) - H))
  }

  /** The REACHED_END branch of memalloc after growth: the search state
      `ReachEnd` describes and what the growth branch promises together give
      the outcome `Grown`. */
  lemma GrowTaken(hOld: map<nat, Header>, cOld: seq<nat>, hs: map<nat, Header>, cs: seq<nat>,
                  h: map<nat, Header>, c: seq<nat>, head: nat, sz: nat, os: PageMapper,
                  r: nat, at: nat, lastAt: nat, clash: bool)
    requires SearchRun(hOld, cOld, hs, cs, head, |cs|, sz) && Within(cs, cOld) && cs[|cs| - 1] in hs
    requires !FitsFrom(hOld, cOld, 0, sz)
    requires clash == GrowClash(hs, cs, cs[|cs| - 1], sz, os)
    requires r != NULL && r in h && !h[r].isFree && Closed(h)
    requires !clash ==>
               IsChain(h, c) && 0 < |c| && c[0] == cs[0] &&
               |cs| <= |c| && c[..|cs|] == cs && lastAt == |cs| - 1 &&
               lastAt <= at <= lastAt + 1 && at < |c| && c[at] == r && c[lastAt] == cs[|cs| - 1] &&
               (at == lastAt <==> lastAt == |c| - 1) && !h[cs[|cs| - 1]].isFree &&
               UsedGrown(hs, cs, h, c, r, cs[|cs| - 1]) &&
               Caps(h, c) == Caps(hs, cs) + (RegionActualSize(GrowQuery(hs[cs[|cs| - 1]], sz)) - H)
    ensures Grown(hOld, cOld, hs, cs, h, c, head, sz, os, r, at, lastAt, clash)
  {
    if !clash {
      KeptThenGrown(hOld, cOld, hs, cs, h, c, r, c[lastAt]);
    }
  }

  /** Whichever way memalloc went, the returned block is used in a closed
      store; without a clash the chain is valid from `head` and holds it at
      `at`; and the heap grew only when no original free block fits. */
  lemma TakenEither(hOld: map<nat, Header>, cOld: seq<nat>, hs: map<nat, Header>, cs: seq<nat>,
                    h: map<nat, Header>, c: seq<nat>, head: nat, sz: nat, os: PageMapper,
                    r: nat, at: nat, lastAt: nat, grew: bool, clash: bool)
    requires !grew ==> Taken(hOld, cOld, hs, cs, h, c, head, sz, r, at, clash)
    requires grew ==> Grown(hOld, cOld, hs, cs, h, c, head, sz, os, r, at, lastAt, clash)
    ensures r != NULL && r in h && !h[r].isFree && Closed(h)
    ensures !clash ==> Closed(h) && IsChain(h, c) && |c| > 0 && c[0] == head && at < |c| && c[at] == r
    ensures grew ==> !FitsFrom(hOld, cOld, 0, sz)
  {
  }

  /** The store with the block at `x` marked used. */
  function Occupy(h: map<nat, Header>, x: nat): (h': map<nat, Header>)
    requires x in h
    ensures h'.Keys == h.Keys && !h'[x].isFree
  {
    h[x := h[x].(isFree := false)]
  }

  /** The block memalloc returns after growing the heap behind `last`: the
      successor of `last` when there is one, `last` otherwise. */
  function TakeAfterGrowth(h: map<nat, Header>, last: nat): nat
    requires last in h
  {
    if h[last].next != NULL then h[last].next else last
  }

  /** The store after memalloc has marked `last` and, when it has one, its
      successor used. */
  function TakenMap(h: map<nat, Header>, last: nat): map<nat, Header>
    requires last in h && Closed(h)
  {
    var m := Occupy(h, last);
    if m[last].next != NULL then Occupy(m, m[last].next) else m
  }

  /** Both marked blocks are used afterwards, whatever the chain. */
  lemma TakenSound(h: map<nat, Header>, last: nat)
    requires last in h && Closed(h)
    ensures var h' := TakenMap(h, last);
            var r := TakeAfterGrowth(h, last);
            r in h' && !h'[r].isFree && !h'[last].isFree && Closed(h') && h'.Keys == h.Keys
  {
  }

  /** Marking the old last block used after the heap grew: the grown heap is
      a valid chain with that block at its old position, and it is the only
      newly used block. */
  lemma MarkLast(h1: map<nat, Header>, c1: seq<nat>, h2: map<nat, Header>, c2: seq<nat>, cap: nat, other: nat)
    requires Extended(h1, c1, h2, c2, cap)
    ensures var x := c1[|c1| - 1];
            var h' := Occupy(h2, x);
            |c1| - 1 < |c2| && c2[|c1| - 1] == x && c2[0] == c1[0] &&
            Closed(h') && IsChain(h', c2) && Caps(h', c2) == Caps(h1, c1) + cap &&
            h'[x].next == NextIn(c2, |c1| - 1) && (h'[x].next == NULL <==> |c2| == |c1|) &&
            UsedGrown(h1, c1, h', c2, other, x)
  {
    var i := |c1| - 1;
    var x := c1[i];
    assert c2[i] == c2[..|c1|][i];
    assert c2[0] == c2[..|c1|][0];
    FlagKeepsChain(h2, c2, x, false);
    MarkUsed(h1, c1, h2, c2, other, x, x);
    assert LinkedAt(h2, c2, i);
    if i + 1 < |c2| {
      assert LinkedAt(h2, c2, i + 1);
    }
  }

  /** Marking the successor of a block used as well. */
  lemma MarkNext(hOld: map<nat, Header>, cOld: seq<nat>, h: map<nat, Header>, c: seq<nat>, i: nat, a: nat, b: nat)
    requires Closed(h) && IsChain(h, c) && i < |c| && h[c[i]].next != NULL && h[c[i]].next == a
    requires UsedGrown(hOld, cOld, h, c, a, b)
    ensures i + 1 < |c| && h[c[i]].next == c[i + 1]
    ensures var h' := Occupy(h, c[i + 1]);
            Closed(h') && IsChain(h', c) && Caps(h', c) == Caps(h, c) &&
            UsedGrown(hOld, cOld, h', c, a, b)
  {
    assert LinkedAt(h, c, i);
    FlagKeepsChain(h, c, c[i + 1], false);
    MarkUsed(hOld, cOld, h, c, a, b, c[i + 1]);
  }

  /** The shape of the heap after the REACHED_END branch of memalloc (see
      GrowTakeSound). */
  lemma GrowTakeShape(h1: map<nat, Header>, c1: seq<nat>, h2: map<nat, Header>, cF: seq<nat>, cap: nat,
                      last: nat, hF: map<nat, Header>, r: nat, lastAt: nat, at: nat)
    requires Extended(h1, c1, h2, cF, cap)
    requires lastAt == |c1| - 1 && last == c1[lastAt] && last in h2
    requires hF == TakenMap(h2, last) && r == TakeAfterGrowth(h2, last)
    requires at == (if r == last then lastAt else lastAt + 1)
    ensures Closed(hF) && IsChain(hF, cF) && |cF| > 0 && cF[0] == c1[0]
    ensures |c1| <= |cF| && cF[..|c1|] == c1
    ensures lastAt <= at <= lastAt + 1 && at < |cF| && cF[at] == r && cF[lastAt] == last
    ensures at == lastAt <==> lastAt == |cF| - 1
    ensures !hF[last].isFree
  {
    MarkLast(h1, c1, h2, cF, cap, r);
    var m := Occupy(h2, last);
    if m[last].next != NULL {
      MarkNext(h1, c1, m, cF, lastAt, r, last);
    }
  }

  /** The same branch counted: only the two marked blocks became used, and
      the capacity sum grew by `cap`. */
  lemma GrowTakeCounted(h1: map<nat, Header>, c1: seq<nat>, h2: map<nat, Header>, cF: seq<nat>, cap: nat,
                        last: nat, hF: map<nat, Header>, r: nat)
    requires Extended(h1, c1, h2, cF, cap)
    requires last == c1[|c1| - 1] && last in h2
    requires hF == TakenMap(h2, last) && r == TakeAfterGrowth(h2, last)
    ensures UsedGrown(h1, c1, hF, cF, r, last)
    ensures Caps(hF, cF) == Caps(h1, c1) + cap
  {
    MarkLast(h1, c1, h2, cF, cap, r);
    var m := Occupy(h2, last);
    if m[last].next != NULL {
      MarkNext(h1, c1, m, cF, |c1| - 1, r, last);
    }
  }

  /** The REACHED_END branch of memalloc as a whole, when the region does not
      clash with the chain. The search left the store `h1` with chain `c1`
      ending in `last`; `h2` is the store after grow_heap, `hF` the store
      after marking, `cF` the grown chain and `r` the returned block. Then
      the grown heap is a valid chain with the old head and `last` at its old
      position `lastAt`, followed by `r` when that is not `last` itself; only
      those two blocks became used, and the capacity sum grew by `cap`. */
  lemma GrowTakeSound(h1: map<nat, Header>, c1: seq<nat>, h2: map<nat, Header>, cF: seq<nat>, cap: nat,
                      last: nat, hF: map<nat, Header>, r: nat, lastAt: nat, at: nat)
    requires Extended(h1, c1, h2, cF, cap)
    requires lastAt == |c1| - 1 && last == c1[lastAt] && last in h2
    requires hF == TakenMap(h2, last) && r == TakeAfterGrowth(h2, last)
    requires at == (if r == last then lastAt else lastAt + 1)
    ensures Closed(hF) && IsChain(hF, cF) && |cF| > 0 && cF[0] == c1[0]
    ensures |c1| <= |cF| && cF[..|c1|] == c1
    ensures lastAt <= at <= lastAt + 1 && at < |cF| && cF[at] == r && cF[lastAt] == last
    ensures at == lastAt <==> lastAt == |cF| - 1
    ensures !hF[last].isFree && UsedGrown(h1, c1, hF, cF, r, last)
    ensures Caps(hF, cF) == Caps(h1, c1) + cap
  {
    GrowTakeShape(h1, c1, h2, cF, cap, last, hF, r, lastAt, at);
    GrowTakeCounted(h1, c1, h2, cF, cap, last, hF, r);
  }

  /** The position of `x` in `s`. */
  ghost function IndexOf(s: seq<nat>, x: nat): (i: nat)
    requires x in s
    ensures i < |s| && s[i] == x
  {
    if s[0] == x then 0 else 1 + IndexOf(s[1..], x)
  }

  class Heap {
    /** The header last written at each address. A header absorbed by a merge
        stays here, unreferenced, as its bytes stay in memory. */
    var hdr: map<nat, Header>
    /** The headers reachable from the heap start, in link order. */
    ghost var chain: seq<nat>

    /** Every stored link is null or a stored header, and the chain is a
        null-terminated acyclic list of stored headers. */
    ghost predicate Valid()
      reads this
    {
      Closed(hdr) && IsChain(hdr, chain)
    }

    /** A heap before heap_init: no header written yet. */
    constructor ()
      ensures hdr == map[] && chain == [] && Valid()
    {
      hdr := map[];
      chain := [];
    }

    /** block_init: write a free header with the given link and the capacity
        of a block of `blockSize` bytes. */
    method BlockInit(addr: nat, blockSize: nat, next: nat)
      modifies this
      ensures hdr == old(hdr)[addr := Header(next, CapacityFromSize(blockSize), true)]
      ensures chain == old(chain)
    {
      hdr := hdr[addr := Header(next, CapacityFromSize(blockSize), true)];
    }

    /** alloc_region: map a region for `query` bytes, first at `hint` with
        fixed placement, then anywhere; on success write one free header over
        the whole region. */
    method AllocRegion(hint: nat, query: nat, os: PageMapper) returns (region: Region)
      modifies this
      ensures chain == old(chain)
      ensures RegionIsInvalid(region) <==> Placement(hint, os) == NULL
      ensures RegionIsInvalid(region) ==> region == REGION_INVALID && hdr == old(hdr)
      ensures !RegionIsInvalid(region) ==>
                region.addr == Placement(hint, os) &&
                region.size == RegionActualSize(query) &&
                region.extendsPrev == os.fixedOk &&
                hdr == old(hdr)[region.addr := Header(NULL, RegionActualSize(query) - H, true)]
      ensures Closed(old(hdr)) ==> Closed(hdr)
    {
      var regionSize := RegionActualSize(query);
      var addr := hint;
      var extendsPrev := true;
      if !os.fixedOk {
        addr := os.fallback;
        extendsPrev := false;
      }
      region := Region(addr, regionSize, extendsPrev);
      if RegionIsInvalid(region) {
        return REGION_INVALID;
      }
      BlockInit(addr, RegionActualSize(query), NULL);
    }

    /** heap_init: map the first region at HEAP_START (or wherever the
        provider puts it) and make its single free block the whole chain. */
    method Init(initial: nat, os: PageMapper) returns (heap: nat)
      requires Closed(hdr)
      modifies this
      ensures heap == Placement(HEAP_START, os)
      ensures heap == NULL <==> (if os.fixedOk then false else os.fallback == NULL)
      ensures heap == NULL ==> hdr == old(hdr) && chain == old(chain)
      ensures heap != NULL ==>
                Valid() && chain == [heap] &&
                hdr == old(hdr)[heap := Header(NULL, RegionActualSize(initial) - H, true)]
    {
      var region := AllocRegion(HEAP_START, initial, os);
      if RegionIsInvalid(region) {
        return NULL;
      }
      heap := region.addr;
      chain := [heap];
      assert LinkedAt(hdr, chain, 0);
    }

    /** split_if_too_big: cut the unused tail off a free block. */
    method SplitIfTooBig(block: nat, query: nat) returns (split: bool)
      requires block in hdr
      modifies this
      ensures split == CanSplit(old(hdr), block, query)
      ensures hdr == SplitMap(old(hdr), block, query)
      ensures chain == old(chain)
    {
      var q := Max(query, BLOCK_MIN_CAPACITY);
      if BlockSplittable(hdr[block], q) {
        var nextBlockSize := SizeFromCapacity(hdr[block].capacity) - q;
        hdr := hdr[block := hdr[block].(capacity := q)];
        var newNext := block + H + q;
        BlockInit(newNext, nextBlockSize, hdr[block].next);
        hdr := hdr[block := hdr[block].(next := newNext)];
        split := true;
      } else {
        split := false;
      }
    }

    /** try_merge_with_next: absorb the successor when it exists, both blocks
        are free and it starts where this block's contents end. */
    method TryMergeWithNext(block: nat) returns (merged: bool)
      requires block in hdr && Closed(hdr)
      modifies this
      ensures merged == CanMerge(old(hdr), block)
      ensures hdr == MergeMap(old(hdr), block)
      ensures chain == old(chain)
    {
      var initNext := hdr[block].next;
      if initNext != NULL && Mergeable(block, hdr[block], initNext, hdr[initNext]) {
        hdr := hdr[block := hdr[block].(capacity := hdr[block].capacity + hdr[initNext].capacity)];
        hdr := hdr[block := hdr[block].(next := hdr[initNext].next)];
        merged := true;
      } else {
        merged := false;
      }
    }

    /** find_good_or_last: first-fit search from `block`. A free block that is
        too small is merged with its successor and examined again; a fitting
        block is split and returned; otherwise the last block is returned.
        `clash` reports that the split wrote its new header over a header
        already in the chain, which the overstated remainder capacities make
        possible; every other outcome keeps the chain valid. The search ends
        at the last block only when no free block of the original chain fits:
        merges never shrink a free block. */
    method FindGoodOrLast(block: nat, sz: nat) returns (res: SearchResult, ghost at: nat, ghost clash: bool)
      requires block != NULL ==> Valid() && |chain| > 0 && chain[0] == block
      modifies this
      ensures res.Corrupted? <==> block == NULL
      ensures block == NULL ==> hdr == old(hdr) && chain == old(chain) && !clash
      ensures block != NULL ==> Searched(old(hdr), old(chain), hdr, chain, block, sz, res, at, clash)
    {
      at, clash := 0, false;
      if block == NULL {
        return Corrupted, at, clash;
      }
      var tmp := block;
      var last := block;
      ghost var k := 0;
      ghost var hOld, cOld := hdr, chain;
      assert NoneFitsBefore(hdr, chain, 0, sz);
      assert LinkedAt(hdr, chain, 0);
      while tmp != NULL
        invariant Scanning(hOld, cOld, hdr, chain, block, k, sz, tmp, last)
        decreases |chain| - k
      {
        ScanAt(hOld, cOld, hdr, chain, block, k, sz, tmp, last);
        var merged := false;
        if hdr[tmp].isFree {
          if BlockIsBigEnough(sz, hdr[tmp]) {
            ghost var before, h0 := chain, hdr;
            var didSplit := SplitIfTooBig(tmp, sz);
            clash := didSplit && SplitPoint(tmp, sz) in before;
            if didSplit {
              chain := Inserted(before, k, SplitPoint(tmp, sz));
            }
            FoundExit(hOld, cOld, h0, before, block, k, sz, tmp, last, clash, chain);
            assert hOld == old(hdr) && cOld == old(chain);
            return Found(tmp), k, clash;
          } else {
            ghost var before, h0 := chain, hdr;
            merged := TryMergeWithNext(tmp);
            if merged {
              MergeStep(hOld, cOld, h0, before, block, k, sz, tmp, last);
              chain := Absorbed(before, k);
            }
          }
        }
        if !merged {
          PassStep(hOld, cOld, hdr, chain, block, k, sz, tmp, last);
          last := tmp;
          tmp := hdr[tmp].next;
          k := k + 1;
        }
      }
      EndExit(hOld, cOld, hdr, chain, block, k, sz, last);
      assert hOld == old(hdr) && cOld == old(chain);
      return ReachedEnd(last), k, clash;
    }

    /** grow_heap: map a region after the last block (for the query less the
        last block's capacity when it is free), split it to the query, link
        it after `last` and try to merge `last` into it. The mapping must
        succeed: the code has no failure path here. */
    method GrowHeap(last: nat, query: nat, os: PageMapper) returns (r: nat)
      requires last in hdr && Closed(hdr) && |chain| > 0
      requires os.fixedOk || os.fallback != NULL
      requires !hdr[last].isFree || hdr[last].capacity < Max(query, BLOCK_MIN_CAPACITY)
      modifies this
      ensures r == last
      ensures hdr == GrowMap(old(hdr), last, query, os)
      ensures chain == GrowChain(old(hdr), old(chain), last, query, os)
    {
      var q := Max(query, BLOCK_MIN_CAPACITY);
      if hdr[last].isFree {
        q := SizeSub(q, hdr[last].capacity);
      }
      ghost var h0 := hdr;
      var region := AllocRegion(GrowHint(last, hdr[last]), q, os);
      ghost var h1 := hdr;
      var split := SplitIfTooBig(region.addr, q);
      SplitKeepsClosed(h1, region.addr, q);
      RelinkKeepsClosed(hdr, last, region.addr);
      hdr := hdr[last := hdr[last].(next := region.addr)];
      var merged := TryMergeWithNext(last);
      chain := GrowChain(h0, old(chain), last, query, os);
      r := last;
    }

    /** try_memalloc_existing: the search over the existing blocks. */
    method TryMemallocExisting(query: nat, block: nat) returns (res: SearchResult, ghost at: nat, ghost clash: bool)
      requires block != NULL ==> Valid() && |chain| > 0 && chain[0] == block
      modifies this
      ensures res.Corrupted? <==> block == NULL
      ensures block == NULL ==> hdr == old(hdr) && chain == old(chain) && !clash
      ensures block != NULL ==> Searched(old(hdr), old(chain), hdr, chain, block, query, res, at, clash)
    {
      res, at, clash := FindGoodOrLast(block, query);
    }

    /** The REACHED_END branch of memalloc: grow the heap after `last`, mark
        `last` used and, when it now has a successor, mark that successor
        used and return it; otherwise return `last`. */
    method GrowAndTake(last: nat, query: nat, os: PageMapper)
      returns (r: nat, ghost lastAt: nat, ghost at: nat, ghost clash: bool)
      requires Valid() && |chain| > 0 && last == chain[|chain| - 1]
      requires os.fixedOk || os.fallback != NULL
      requires !hdr[last].isFree || hdr[last].capacity < Max(query, BLOCK_MIN_CAPACITY)
      modifies this
      ensures r != NULL && r in hdr && !hdr[r].isFree && Closed(hdr)
      ensures clash == GrowClash(old(hdr), old(chain), last, query, os)
      ensures !clash ==>
                Valid() && |chain| > 0 && chain[0] == old(chain[0]) &&
                |old(chain)| <= |chain| && chain[..|old(chain)|] == old(chain) &&
                lastAt == |old(chain)| - 1 && lastAt <= at <= lastAt + 1 && at < |chain| &&
                chain[at] == r && chain[lastAt] == last && (at == lastAt <==> lastAt == |chain| - 1) &&
                !hdr[last].isFree && UsedGrown(old(hdr), old(chain), hdr, chain, r, last) &&
                Caps(hdr, chain) == old(Caps(hdr, chain)) + (RegionActualSize(GrowQuery(old(hdr)[last], query)) - H)
    {
      assert LinkedAt(hdr, chain, |chain| - 1);
      r := GrowHeap(last, query, os);
      GrowClosed(old(hdr), last, query, os);
      ghost var h2 := hdr;
      clash := GrowClash(old(hdr), old(chain), last, query, os);
      hdr := Occupy(hdr, r);
      if hdr[r].next != NULL {
        r := hdr[r].next;
        hdr := Occupy(hdr, r);
      }
      TakenSound(h2, last);
      lastAt := |old(chain)| - 1;
      at := if r == last then lastAt else lastAt + 1;
      if !clash {
        GrowExtends(old(hdr), old(chain), last, query, os, h2, chain);
        ghost var cap := RegionActualSize(GrowQuery(old(hdr)[last], query)) - H;
        GrowTakeSound(old(hdr), old(chain), h2, chain, cap, last, hdr, r, lastAt, at);
      }
    }

    /** memalloc: search from `heapStart`; mark a found block used; when the
        chain is exhausted, grow the heap, mark the old last block used and,
        when it has a successor, mark that successor used and return it.
        `hs` and `cs` are the store and chain the search left behind; `grew`
        reports that it reached the end, which happens only when no free
        block of the original chain fits. `clash` reports that a header the
        call wrote (the split point of the found block, or a header of the
        new region) landed on a header the chain listed. */
    method Memalloc(query: nat, heapStart: nat, os: PageMapper)
      returns (r: nat, ghost at: nat, ghost lastAt: nat, ghost grew: bool, ghost clash: bool,
               ghost hs: map<nat, Header>, ghost cs: seq<nat>)
      requires heapStart != NULL ==> Valid() && |chain| > 0 && chain[0] == heapStart
      requires os.fixedOk || os.fallback != NULL
      modifies this
      ensures r == NULL <==> heapStart == NULL
      ensures heapStart == NULL ==> hdr == old(hdr) && chain == old(chain) && !clash && !grew
      ensures r != NULL ==> r in hdr && !hdr[r].isFree && Closed(hdr)
      ensures r != NULL && !clash ==>
                Valid() && |chain| > 0 && chain[0] == heapStart && at < |chain| && chain[at] == r
      ensures heapStart != NULL && FitsFrom(old(hdr), old(chain), 0, query) ==> !grew
      ensures r != NULL && !grew ==> Taken(old(hdr), old(chain), hs, cs, hdr, chain, heapStart, query, r, at, clash)
      ensures grew ==>
                heapStart != NULL &&
                Grown(old(hdr), old(chain), hs, cs, hdr, chain, heapStart, query, os, r, at, lastAt, clash)
    {
      grew, lastAt := false, 0;
      var found;
      ghost var h0, c0 := hdr, chain;
      found, at, clash := TryMemallocExisting(query, heapStart);
      hs, cs := hdr, chain;
      match found {
        case Found(b) =>
          TakeFound(h0, c0, hdr, chain, heapStart, query, b, at, clash);
          hdr := Occupy(hdr, b);
          r := b;
          TakenEither(h0, c0, hs, cs, hdr, chain, heapStart, query, os, r, at, lastAt, grew, clash);
          assert h0 == old(hdr) && c0 == old(chain);
        case ReachedEnd(last) =>
          grew := true;
          ReachEnd(h0, c0, hdr, chain, heapStart, query, last, at, clash);
          r, lastAt, at, clash := GrowAndTake(last, query, os);
          GrowTaken(h0, c0, hs, cs, hdr, chain, heapStart, query, os, r, at, lastAt, clash);
          TakenEither(h0, c0, hs, cs, hdr, chain, heapStart, query, os, r, at, lastAt, grew, clash);
          assert h0 == old(hdr) && c0 == old(chain);
        case Corrupted =>
          r := NULL;
          assert h0 == old(hdr) && c0 == old(chain);
      }
    }

    /** _malloc: allocate from the heap that starts at HEAP_START and return
        the contents pointer of the block memalloc chose. */
    method Malloc(query: nat, os: PageMapper)
      returns (p: nat, ghost at: nat, ghost lastAt: nat, ghost grew: bool, ghost clash: bool,
               ghost hs: map<nat, Header>, ghost cs: seq<nat>)
      requires Valid() && |chain| > 0 && chain[0] == HEAP_START
      requires os.fixedOk || os.fallback != NULL
      modifies this
      ensures p != NULL && p >= H
      ensures BlockGetHeader(p) in hdr && !hdr[BlockGetHeader(p)].isFree && Closed(hdr)
      ensures !clash ==>
                Valid() && |chain| > 0 && chain[0] == HEAP_START && at < |chain| && chain[at] == BlockGetHeader(p)
      ensures FitsFrom(old(hdr), old(chain), 0, query) ==> !grew
      ensures !grew ==> Taken(old(hdr), old(chain), hs, cs, hdr, chain, HEAP_START, query, BlockGetHeader(p), at, clash)
      ensures grew ==> Grown(old(hdr), old(chain), hs, cs, hdr, chain, HEAP_START, query, os, BlockGetHeader(p), at, lastAt, clash)
    {
      var addr;
      addr, at, lastAt, grew, clash, hs, cs := Memalloc(query, HEAP_START, os);
      p := ContentsOf(addr);
      HeaderContentsRoundTrip(addr);
    }

    /** _free: ignore null; otherwise mark the block free and merge it with
        its successors while they are free and contiguous. */
    method Free(mem: nat) returns (ghost i: nat, ghost n: nat)
      requires mem != NULL ==> Valid() && mem >= H && BlockGetHeader(mem) in chain
      modifies this
      ensures mem == NULL ==> hdr == old(hdr) && chain == old(chain)
      ensures mem != NULL ==> Valid() && Released(old(hdr), old(chain), hdr, chain, BlockGetHeader(mem), i, n)
    {
      i, n := 0, 0;
      if mem == NULL {
        return;
      }
      var header := BlockGetHeader(mem);
      i := IndexOf(chain, header);
      hdr := hdr[header := hdr[header].(isFree := true)];
      FreeStart(old(hdr), old(chain), header, i);
      var merged := true;
      while merged
        invariant FreeRun(old(hdr), old(chain), hdr, chain, header, i, n)
        invariant !merged ==> !CanMerge(hdr, header)
        decreases |chain| + (if merged then 1 else 0)
      {
        if CanMerge(hdr, header) {
          FreeStep(old(hdr), old(chain), hdr, chain, header, i, n);
        }
        merged := TryMergeWithNext(header);
        if merged {
          chain := Absorbed(chain, i);
          n := n + 1;
        }
      }
      FreeDone(old(hdr), old(chain), hdr, chain, header, i, n);
    }
  }

  /** test_usual_malloc: heap_init(15000) and then _malloc(200), with the
      fixed placement at HEAP_START honoured. The region holds one free
      block large enough, so the heap does not grow: the first block is
      returned, split to exactly 200 bytes, and the heap stays valid. */
  method UsualMalloc() returns (heap: Heap, p: nat)
    ensures p == ContentsOf(HEAP_START)
    ensures HEAP_START in heap.hdr && !heap.hdr[HEAP_START].isFree && heap.hdr[HEAP_START].capacity == 200
    ensures heap.Valid()
  {
    heap := new Heap();
    var os := PageMapper(true, NULL);
    var start := heap.Init(15000, os);
    assert heap.hdr[HEAP_START].capacity == 16384 - H;
    assert heap.chain[0] == HEAP_START;
    ghost var at, lastAt, grew, clash, hs, cs;
    p, at, lastAt, grew, clash, hs, cs := heap.Malloc(200, os);
  }

  /** The outcome of releasing the block `b`, found at position `i` of the
      chain `c0`, after `n` merges: the store is still closed and chained with
      the same capacity sum; `b` is free and can absorb nothing more; no other
      header changed; the chain lost exactly the `n` headers after `b`, all of
      which were free, so no used block was swallowed, and each of which
      started where the block grown so far declared its contents to end; and
      `b`'s capacity is the sum over the run `c0[i..i + 1 + n]`, so the merges
      did not count the headers they absorbed. */
  ghost predicate Released(h0: map<nat, Header>, c0: seq<nat>, h: map<nat, Header>, c: seq<nat>, b: nat, i: nat, n: nat)
  {
    IsChain(h0, c0) && Closed(h) && IsChain(h, c) && Caps(h, c) == Caps(h0, c0) &&
    b in h && h[b].isFree && !CanMerge(h, b) && h.Keys == h0.Keys &&
    (forall a :: a in h0 && a != b ==> h[a] == h0[a]) &&
    b in c0 && i == IndexOf(c0, b) && i + 1 + n <= |c0| &&
    c == c0[..i + 1] + c0[i + 1 + n..] &&
    RunAbsorbed(h0, c0, b, i, n) &&
    h[b].capacity == Caps(h0, c0[i..i + 1 + n])
  }

  /** The `n` headers after position `i` of `c0` form a run the block `b` at
      position `i` can absorb one by one: each was free and starts exactly
      where the run before it declares its contents to end. */
  ghost predicate RunAbsorbed(h0: map<nat, Header>, c0: seq<nat>, b: nat, i: nat, n: nat)
  {
    IsChain(h0, c0) && i + 1 + n <= |c0| &&
    (forall x :: x in c0[i..i + 1 + n] ==> x in h0) &&
    (forall j :: i < j <= i + n ==> h0[c0[j]].isFree) &&
    (forall j :: i < j <= i + n ==> c0[j] == ContentsOf(b) + Caps(h0, c0[i..j]))
  }

  /** A free header that starts at the declared end of an absorbable run
      extends the run. */
  lemma RunGrows(h0: map<nat, Header>, c0: seq<nat>, b: nat, i: nat, n: nat)
    requires RunAbsorbed(h0, c0, b, i, n) && i + 2 + n <= |c0|
    requires h0[c0[i + 1 + n]].isFree && c0[i + 1 + n] == ContentsOf(b) + Caps(h0, c0[i..i + 1 + n])
    ensures RunAbsorbed(h0, c0, b, i, n + 1)
  {
    forall x | x in c0[i..i + 2 + n] ensures x in h0 {
      assert x in c0;
    }
  }

  /** Releasing a block leaves every other used block of the chain in the
      chain, with its header untouched. */
  lemma ReleaseKeepsUsed(h0: map<nat, Header>, c0: seq<nat>, h: map<nat, Header>, c: seq<nat>, b: nat, i: nat, n: nat)
    requires Released(h0, c0, h, c, b, i, n)
    ensures forall x :: x in c0 && x != b && !h0[x].isFree ==> x in c && x in h && h[x] == h0[x]
  {
    forall x | x in c0 && x != b && !h0[x].isFree
      ensures x in c && x in h && h[x] == h0[x]
    {
      var j :| 0 <= j < |c0| && c0[j] == x;
      assert j != i;
      if j < i {
        assert c[j] == c0[..i + 1][j] == x;
      } else {
        assert j > i + n;
        assert c[j - n] == c0[i + 1 + n..][j - n - i - 1] == x;
      }
    }
  }

  /** What the finished release loop leaves behind. */
  lemma FreeDone(h0: map<nat, Header>, c0: seq<nat>, h: map<nat, Header>, c: seq<nat>, b: nat, i: nat, n: nat)
    requires FreeRun(h0, c0, h, c, b, i, n) && !CanMerge(h, b)
    ensures Released(h0, c0, h, c, b, i, n)
  {
    assert c0[i] == b;
    IndexOfUnique(h0, c0, i);
  }

  /** In a chain, the position of the header at `i` is `i`. */
  lemma IndexOfUnique(m: map<nat, Header>, s: seq<nat>, i: nat)
    requires IsChain(m, s) && i < |s|
    ensures IndexOf(s, s[i]) == i
  {
    var j := IndexOf(s, s[i]);
    assert s[j] == s[i];
  }

  /** The state of the release loop after `n` merges: the store differs from
      `h0` only at `b`, which is free and holds the summed capacity of the
      run `c0[i..i + 1 + n]`; every absorbed header was free in `h0` and sat
      at the declared end of the run before it; `c` is
      `c0` with the absorbed headers removed and is still a valid chain with
      the same capacity sum. */
  ghost predicate FreeRun(h0: map<nat, Header>, c0: seq<nat>, h: map<nat, Header>, c: seq<nat>, b: nat, i: nat, n: nat)
  {
    IsChain(h0, c0) && Closed(h) && IsChain(h, c) &&
    i < |c| && c[i] == b && i + 1 + n <= |c0| && c == c0[..i + 1] + c0[i + 1 + n..] &&
    RunAbsorbed(h0, c0, b, i, n) &&
    h.Keys == h0.Keys && (forall a :: a in h0 && a != b ==> h[a] == h0[a]) &&
    b in h && h[b].isFree &&
    h[b].capacity == Caps(h0, c0[i..i + 1 + n]) &&
    Caps(h, c) == Caps(h0, c0)
  }

  /** Marking the released block free starts the run with no merge done. */
  lemma FreeStart(h0: map<nat, Header>, c0: seq<nat>, b: nat, i: nat)
    requires Closed(h0) && IsChain(h0, c0) && i < |c0| && c0[i] == b
    ensures FreeRun(h0, c0, h0[b := h0[b].(isFree := true)], c0, b, i, 0)
  {
    var h := h0[b := h0[b].(isFree := true)];
    assert Closed(h) && IsChain(h, c0) && Caps(h, c0) == Caps(h0, c0) by {
      FlagKeepsChain(h0, c0, b, true);
    }
    assert c0[i..i + 1] == [b];
    assert h[b].capacity == Caps(h0, c0[i..i + 1]) by {
      CapsPair(h0, b, b);
    }
    assert c0 == c0[..i + 1] + c0[i + 1 + 0..];
  }

  /** One successful merge of the release loop extends the run by one header
      and shortens the chain. */
  lemma FreeStep(h0: map<nat, Header>, c0: seq<nat>, h: map<nat, Header>, c: seq<nat>, b: nat, i: nat, n: nat)
    requires FreeRun(h0, c0, h, c, b, i, n) && CanMerge(h, b)
    ensures i + 1 < |c|
    ensures FreeRun(h0, c0, MergeMap(h, b), Absorbed(c, i), b, i, n + 1)
  {
    MergeKeepsClosed(h, b);
    MergeKeepsChain(h, c, i);
    MergeKeepsCaps(h, c, i);
    OnlyOnce(h, c, i);
    assert c[i + 1] != b;
    AbsorbRun(h0, c0, h, c, i, n);
    RunGrows(h0, c0, b, i, n);
  }

  /** One merge of the release loop absorbs the next header of the original
      chain and adds its (untouched) capacity to the run's sum. */
  lemma AbsorbRun(h: map<nat, Header>, c: seq<nat>, h0: map<nat, Header>, before: seq<nat>, i: nat, n: nat)
    requires (forall x :: x in c ==> x in h) && i + 1 < |before| && i + 1 + n <= |c|
    requires before == c[..i + 1] + c[i + 1 + n..]
    requires before[i + 1] in h0 && before[i + 1] in h && h0[before[i + 1]] == h[before[i + 1]]
    ensures i + 2 + n <= |c| && before[i + 1] == c[i + 1 + n]
    ensures Absorbed(before, i) == c[..i + 1] + c[i + 2 + n..]
    ensures forall x :: x in c[i..i + 2 + n] ==> x in h
    ensures Caps(h, c[i..i + 2 + n]) == Caps(h, c[i..i + 1 + n]) + h0[before[i + 1]].capacity
  {
    assert before[i + 1] == c[i + 1 + n];
    assert Absorbed(before, i) == c[..i + 1] + c[i + 2 + n..];
    var x := c[i + 1 + n];
    assert c[i..i + 2 + n] == c[i..i + 1 + n] + [x];
    CapsAppend(h, c[i..i + 1 + n], [x]);
    CapsPair(h, x, x);
  }
}

=== FILE: chain.dfy ===
/** The header store as a map from address to header, the chain of headers
    reachable from the heap start, and the two in-place rewrites the engine
    performs on it: splitting a block and merging it with its successor.
    The rewrites are given here as functions on the store; the methods of
    the heap class are proved to perform exactly them. */
module Chain {
  import opened Layout

  /** Every link stored in a header is null or the address of a header. */
  ghost predicate Closed(m: map<nat, Header>)
  {
    forall a :: a in m ==> m[a].next == NULL || m[a].next in m
  }

  /** The link the header at position `i` of `s` must hold. */
  function NextIn(s: seq<nat>, i: nat): nat
    requires i < |s|
  {
    if i + 1 < |s| then s[i + 1] else NULL
  }

  /** `s` lists, in link order, distinct non-null stored headers, each linked
      to the next and the last one to null: a null-terminated acyclic list. */
  ghost predicate IsChain(m: map<nat, Header>, s: seq<nat>)
  {
    (forall x :: x in s ==> x != NULL && x in m) &&
    (forall i :: 0 <= i < |s| ==> LinkedAt(m, s, i)) &&
    (forall i, j :: 0 <= i < j < |s| ==> s[i] != s[j])
  }

  /** The header at position i of `s` is stored, non-null and linked to the
      next position (null at the end). */
  ghost predicate LinkedAt(m: map<nat, Header>, s: seq<nat>, i: nat)
    requires i < |s|
  {
    s[i] != NULL && s[i] in m && m[s[i]].next == NextIn(s, i)
  }

  /** The sum of the declared capacities of the headers listed in `s`. */
  ghost function Caps(m: map<nat, Header>, s: seq<nat>): nat
    requires forall x :: x in s ==> x in m
  {
    if s == [] then 0 else m[s[0]].capacity + Caps(m, s[1..])
  }

  /** Capacities used blocks keep, and no block becomes used: every used
      header of (h0, c0) is still listed in c1, still used, with its capacity,
      and every used header listed in c1 was a used header of c0. */
  ghost predicate UsedKept(h0: map<nat, Header>, c0: seq<nat>, h1: map<nat, Header>, c1: seq<nat>)
  {
    (forall x {:trigger x in c0} :: x in c0 && x in h0 && !h0[x].isFree ==>
       x in c1 && x in h1 && !h1[x].isFree && h1[x].capacity == h0[x].capacity) &&
    (forall x {:trigger x in c1} :: x in c1 && x in h1 && !h1[x].isFree ==> x in c0 && x in h0 && !h0[x].isFree)
  }

  /** try_merge_with_next succeeds: there is a successor, both blocks are
      free and the successor starts where the block's contents end. */
  predicate CanMerge(m: map<nat, Header>, b: nat)
  {
    b in m && m[b].next != NULL && m[b].next in m && Mergeable(b, m[b], m[b].next, m[m[b].next])
  }

  /** The store after try_merge_with_next(b): on success the capacities are
      added (without the absorbed header's H bytes) and the link skips the
      absorbed header; otherwise nothing changes. */
  function MergeMap(m: map<nat, Header>, b: nat): map<nat, Header>
    requires b in m
  {
    if CanMerge(m, b) then
      var n := m[b].next;
      m[b := m[b].(capacity := m[b].capacity + m[n].capacity, next := m[n].next)]
    else m
  }

  /** The address at which a split of block `b` for `query` writes the
      remainder header. */
  function SplitPoint(b: nat, query: nat): (r: nat)
    ensures r > b + H
  {
    b + H + Max(query, BLOCK_MIN_CAPACITY)
  }

  /** split_if_too_big splits: the block is splittable for the floored query. */
  predicate CanSplit(m: map<nat, Header>, b: nat, query: nat)
  {
    b in m && BlockSplittable(m[b], Max(query, BLOCK_MIN_CAPACITY))
  }

  /** The store after split_if_too_big(b, query): the block keeps the floored
      query as capacity and links to a new free header at the split point,
      which inherits the old link and gets capacity_from_size of the old size
      minus the floored query. Otherwise nothing changes. */
  function SplitMap(m: map<nat, Header>, b: nat, query: nat): map<nat, Header>
    requires b in m
  {
    if CanSplit(m, b, query) then
      var q := Max(query, BLOCK_MIN_CAPACITY);
      var h := m[b];
      var r := SplitPoint(b, query);
      m[b := h.(capacity := q, next := r)]
       [r := Header(h.next, CapacityFromSize(SizeFromCapacity(h.capacity) - q), true)]
    else m
  }

  lemma {:induction false} CapsAppend(m: map<nat, Header>, a: seq<nat>, b: seq<nat>)
    requires forall x :: x in a ==> x in m
    requires forall x :: x in b ==> x in m
    ensures forall x :: x in a + b ==> x in m
    ensures Caps(m, a + b) == Caps(m, a) + Caps(m, b)
  {
    if a == [] {
      assert a + b == b;
    } else {
      assert (a + b)[1..] == a[1..] + b;
      CapsAppend(m, a[1..], b);
    }
  }

  lemma {:induction false} CapsFrame(m1: map<nat, Header>, m2: map<nat, Header>, s: seq<nat>)
    requires forall x :: x in s ==> x in m1 && x in m2 && m1[x] == m2[x]
    ensures Caps(m1, s) == Caps(m2, s)
  {
    if s != [] {
      CapsFrame(m1, m2, s[1..]);
    }
  }

  /** Replacing the middle part x of a + x + c by y, in a store that agrees
      with the old one on a and c, changes the capacity sum by exactly the
      difference between the middle parts. */
  lemma CapsSplice(m: map<nat, Header>, m': map<nat, Header>, a: seq<nat>, x: seq<nat>, y: seq<nat>, c: seq<nat>)
    requires forall z :: z in a + x + c ==> z in m
    requires forall z :: z in y ==> z in m'
    requires forall z :: z in a + c ==> z in m' && m'[z] == m[z]
    ensures forall z :: z in a + (x + c) ==> z in m
    ensures forall z :: z in a + (y + c) ==> z in m'
    ensures Caps(m', a + (y + c)) + Caps(m, x) == Caps(m, a + (x + c)) + Caps(m', y)
  {
    assert forall z :: z in a ==> z in a + c;
    assert forall z :: z in c ==> z in a + c;
    assert forall z :: z in x ==> z in a + x + c;
    CapsAppend(m, a, x + c);
    CapsAppend(m, x, c);
    CapsAppend(m', a, y + c);
    CapsAppend(m', y, c);
    CapsFrame(m, m', a);
    CapsFrame(m, m', c);
  }

  /** A header occurs once in a chain: not before and not after its position. */
  lemma OnlyOnce(m: map<nat, Header>, s: seq<nat>, i: nat)
    requires IsChain(m, s) && i < |s|
    ensures s[i] !in s[..i] && s[i] !in s[i + 1..]
  {
    forall j | 0 <= j < i ensures s[..i][j] != s[i] {
      assert s[..i][j] == s[j];
    }
    var t := s[i + 1..];
    forall j | 0 <= j < |t| ensures t[j] != s[i] {
      assert t[j] == s[i + 1 + j];
    }
  }

  lemma CapsPair(m: map<nat, Header>, x: nat, y: nat)
    requires x in m && y in m
    ensures Caps(m, [x, y]) == m[x].capacity + m[y].capacity
    ensures Caps(m, [x]) == m[x].capacity
  {
    assert [x, y][1..] == [y];
    assert [y][1..] == [];
    assert [x][1..] == [];
    assert Caps(m, [y]) == m[y].capacity + Caps(m, []);
    assert Caps(m, [x, y]) == m[x].capacity + Caps(m, [y]);
  }

  /** Merging keeps every link pointing at a stored header. */
  lemma MergeKeepsClosed(m: map<nat, Header>, b: nat)
    requires Closed(m) && b in m
    ensures MergeMap(m, b).Keys == m.Keys
    ensures Closed(MergeMap(m, b))
  {
  }

  /** Splitting keeps every link pointing at a stored header, and only adds
      the split point to the store. */
  lemma SplitKeepsClosed(m: map<nat, Header>, b: nat, query: nat)
    requires Closed(m) && b in m
    ensures SplitMap(m, b, query).Keys ==
            if CanSplit(m, b, query) then m.Keys + {SplitPoint(b, query)} else m.Keys
    ensures Closed(SplitMap(m, b, query))
  {
  }

  /** The chain after a merge at position i: the successor is dropped. */
  function Absorbed(s: seq<nat>, i: nat): seq<nat>
    requires i + 1 < |s|
  {
    s[..i + 1] + s[i + 2..]
  }

  /** The chain after a split at position i: the split point follows s[i]. */
  function Inserted(s: seq<nat>, i: nat, r: nat): seq<nat>
    requires i < |s|
  {
    s[..i + 1] + [r] + s[i + 1..]
  }

  /** A merge at position i of a chain removes the successor from the chain
      and keeps it a null-terminated acyclic list. */
  lemma MergeKeepsChain(m: map<nat, Header>, s: seq<nat>, i: nat)
    requires IsChain(m, s) && i < |s| && CanMerge(m, s[i])
    ensures i + 1 < |s| && m[s[i]].next == s[i + 1]
    ensures IsChain(MergeMap(m, s[i]), Absorbed(s, i))
  {
    assert LinkedAt(m, s, i);
    assert i + 1 < |s|;
    var m' := MergeMap(m, s[i]);
    var s' := Absorbed(s, i);
    var b := s[i];
    assert |s'| == |s| - 1;
    forall k | 0 <= k < |s'|
      ensures LinkedAt(m', s', k)
    {
      if k < i {
        assert LinkedAt(m, s, k);
        assert s'[k] == s[k] && s[k] != b;
        assert NextIn(s', k) == s[k + 1];
      } else if k == i {
        assert LinkedAt(m, s, i) && LinkedAt(m, s, i + 1);
        assert s'[k] == b;
        assert NextIn(s', k) == NextIn(s, i + 1);
      } else {
        assert LinkedAt(m, s, k + 1);
        assert s'[k] == s[k + 1] && s[k + 1] != b;
        assert NextIn(s', k) == NextIn(s, k + 1);
      }
    }
    forall x | x in s' ensures x != NULL && x in m' {
      var k :| 0 <= k < |s'| && s'[k] == x;
      assert LinkedAt(m', s', k);
    }
    forall j, k | 0 <= j < k < |s'| ensures s'[j] != s'[k] {
      var j0 := if j <= i then j else j + 1;
      var k0 := if k <= i then k else k + 1;
      assert s'[j] == s[j0] && s'[k] == s[k0] && j0 < k0;
    }
  }

  /** A merge keeps the total declared capacity of the chain. */
  lemma MergeKeepsCaps(m: map<nat, Header>, s: seq<nat>, i: nat)
    requires IsChain(m, s) && i + 1 < |s| && CanMerge(m, s[i]) && m[s[i]].next == s[i + 1]
    ensures forall x :: x in Absorbed(s, i) ==> x in MergeMap(m, s[i])
    ensures Caps(MergeMap(m, s[i]), Absorbed(s, i)) == Caps(m, s)
  {
    var m' := MergeMap(m, s[i]);
    var b, n := s[i], s[i + 1];
    var a, c := s[..i], s[i + 2..];
    assert s == a + ([b, n] + c);
    assert Absorbed(s, i) == a + ([b] + c);
    OnlyOnce(m, s, i);
    assert s[i + 1..] == [n] + c;
    CapsSplice(m, m', a, [b, n], [b], c);
    CapsPair(m, b, n);
    CapsPair(m', b, n);
  }

  /** A merge touches no used block and makes no block used. */
  lemma MergeKeepsUsed(m: map<nat, Header>, s: seq<nat>, i: nat)
    requires IsChain(m, s) && i + 1 < |s| && CanMerge(m, s[i]) && m[s[i]].next == s[i + 1]
    ensures UsedKept(m, s, MergeMap(m, s[i]), Absorbed(s, i))
  {
    var m' := MergeMap(m, s[i]);
    var s' := Absorbed(s, i);
    var b, n := s[i], s[i + 1];
    forall x | x in s && x in m && !m[x].isFree
      ensures x in s' && x in m' && !m'[x].isFree && m'[x].capacity == m[x].capacity
    {
      assert x != b && x != n;
      var j :| 0 <= j < |s| && s[j] == x;
      if j < i { assert s'[j] == x; } else { assert j > i + 1; assert s'[j - 1] == x; }
    }
    forall x | x in s' && x in m' && !m'[x].isFree ensures x in s && x in m && !m[x].isFree {
      var j :| 0 <= j < |s'| && s'[j] == x;
      if j <= i { assert s[j] == x; } else { assert s[j + 1] == x; }
    }
  }

  /** A split at position i of a chain whose split point is not already a
      chain header inserts the new header right after the block and keeps the
      chain a null-terminated acyclic list. */
  lemma SplitKeepsChain(m: map<nat, Header>, s: seq<nat>, i: nat, query: nat)
    requires IsChain(m, s) && i < |s| && CanSplit(m, s[i], query)
    requires SplitPoint(s[i], query) !in s
    ensures IsChain(SplitMap(m, s[i], query), Inserted(s, i, SplitPoint(s[i], query)))
  {
    var m' := SplitMap(m, s[i], query);
    var b, r := s[i], SplitPoint(s[i], query);
    var s' := Inserted(s, i, r);
    assert |s'| == |s| + 1;
    forall k | 0 <= k < |s'|
      ensures LinkedAt(m', s', k)
    {
      if k < i {
        assert LinkedAt(m, s, k);
        assert s'[k] == s[k] && s[k] != b && s[k] != r;
        assert NextIn(s', k) == s[k + 1];
      } else if k == i {
        assert LinkedAt(m, s, i);
        assert s'[k] == b && NextIn(s', k) == r;
      } else if k == i + 1 {
        assert LinkedAt(m, s, i);
        assert s'[k] == r && NextIn(s', k) == NextIn(s, i);
      } else {
        assert LinkedAt(m, s, k - 1);
        assert s'[k] == s[k - 1] && s[k - 1] != b && s[k - 1] != r;
        assert NextIn(s', k) == NextIn(s, k - 1);
      }
    }
    forall x | x in s' ensures x != NULL && x in m' {
      var k :| 0 <= k < |s'| && s'[k] == x;
      assert LinkedAt(m', s', k);
    }
    forall j, k | 0 <= j < k < |s'| ensures s'[j] != s'[k] {
      if j != i + 1 && k != i + 1 {
        var j0 := if j <= i then j else j - 1;
        var k0 := if k <= i then k else k - 1;
        assert s'[j] == s[j0] && s'[k] == s[k0] && j0 < k0;
      } else if j == i + 1 {
        assert s'[k] == s[k - 1];
      } else {
        var j0 := if j <= i then j else j - 1;
        assert s'[j] == s[j0];
      }
    }
  }

  /** A split keeps the total declared capacity of the chain. */
  lemma SplitKeepsCaps(m: map<nat, Header>, s: seq<nat>, i: nat, query: nat)
    requires IsChain(m, s) && i < |s| && CanSplit(m, s[i], query)
    requires SplitPoint(s[i], query) !in s
    ensures forall x :: x in Inserted(s, i, SplitPoint(s[i], query)) ==> x in SplitMap(m, s[i], query)
    ensures Caps(SplitMap(m, s[i], query), Inserted(s, i, SplitPoint(s[i], query))) == Caps(m, s)
  {
    var m' := SplitMap(m, s[i], query);
    var b, r := s[i], SplitPoint(s[i], query);
    var a, c := s[..i], s[i + 1..];
    assert s == a + ([b] + c);
    assert Inserted(s, i, r) == a + ([b, r] + c);
    OnlyOnce(m, s, i);
    assert r !in a && r !in c;
    CapsSplice(m, m', a, [b], [b, r], c);
    CapsPair(m', b, r);
    CapsPair(m, b, b);
  }

  /** A split touches no used block and makes no block used. */
  lemma SplitKeepsUsed(m: map<nat, Header>, s: seq<nat>, i: nat, query: nat)
    requires IsChain(m, s) && i < |s| && CanSplit(m, s[i], query)
    requires SplitPoint(s[i], query) !in s
    ensures UsedKept(m, s, SplitMap(m, s[i], query), Inserted(s, i, SplitPoint(s[i], query)))
  {
    var m' := SplitMap(m, s[i], query);
    var b, r := s[i], SplitPoint(s[i], query);
    var s' := Inserted(s, i, r);
    forall x | x in s && x in m && !m[x].isFree
      ensures x in s' && x in m' && !m'[x].isFree && m'[x].capacity == m[x].capacity
    {
      assert x != b && x != r;
      var j :| 0 <= j < |s| && s[j] == x;
      if j < i { assert s'[j] == x; } else { assert s'[j + 1] == x; }
    }
    forall x | x in s' && x in m' && !m'[x].isFree ensures x in s && x in m && !m[x].isFree {
      var j :| 0 <= j < |s'| && s'[j] == x;
      assert j != i && j != i + 1;
      if j < i { assert s[j] == x; } else { assert s[j - 1] == x; }
    }
  }

  lemma UsedKeptTrans(h0: map<nat, Header>, c0: seq<nat>, h1: map<nat, Header>, c1: seq<nat>,
                      h2: map<nat, Header>, c2: seq<nat>)
    requires UsedKept(h0, c0, h1, c1) && UsedKept(h1, c1, h2, c2)
    ensures UsedKept(h0, c0, h2, c2)
  {
  }

  /** Splitting a block and merging it with the remainder at once restores
      the block's capacity and link: the remainder's overstated capacity and
      the merge's omitted header cancel out. */
  lemma SplitThenMergeRestores(m: map<nat, Header>, b: nat, query: nat)
    requires CanSplit(m, b, query)
    ensures CanMerge(SplitMap(m, b, query), b)
    ensures MergeMap(SplitMap(m, b, query), b)[b] == m[b]
  {
  }

  /** The remainder written by a split claims H bytes more than lie between
      its header and the end of the old block: its declared end overshoots
      the old block's declared end by H. */
  lemma SplitRemainderOvershoots(m: map<nat, Header>, b: nat, query: nat)
    requires CanSplit(m, b, query)
    ensures var m' := SplitMap(m, b, query); var r := SplitPoint(b, query);
            r in m' && m'[b].next == r &&
            BlocksContinuous(b, m'[b], r) &&
            BlockAfter(r, m'[r]) == BlockAfter(b, m[b]) + H
  {
  }

  /** A merge declares H bytes fewer than the two blocks span: when the
      successor's own declared end is exact, the merged block's declared end
      falls H bytes short of it. */
  lemma MergeUndercounts(m: map<nat, Header>, b: nat)
    requires CanMerge(m, b)
    ensures BlockAfter(b, MergeMap(m, b)[b]) + H == BlockAfter(m[b].next, m[m[b].next])
  {
  }

  /** A chain stays a chain in a store that agrees on its headers. */
  lemma ChainFrame(m1: map<nat, Header>, m2: map<nat, Header>, s: seq<nat>)
    requires IsChain(m1, s)
    requires forall x :: x in s ==> x in m2 && m2[x] == m1[x]
    ensures IsChain(m2, s)
    ensures Caps(m2, s) == Caps(m1, s)
  {
    forall k | 0 <= k < |s| ensures LinkedAt(m2, s, k) {
      assert LinkedAt(m1, s, k);
    }
    CapsFrame(m2, m1, s);
  }

  /** Linking the last header of one chain to the first header of a disjoint
      chain yields a chain of both, whose capacity is the sum of theirs. */
  lemma LinkKeepsChain(m: map<nat, Header>, s: seq<nat>, t: seq<nat>)
    requires IsChain(m, s) && IsChain(m, t) && |s| > 0 && |t| > 0
    requires forall x :: x in s ==> x !in t
    ensures var m' := m[s[|s| - 1] := m[s[|s| - 1]].(next := t[0])];
            IsChain(m', s + t) && Caps(m', s + t) == Caps(m, s) + Caps(m, t)
  {
    var last := s[|s| - 1];
    var m' := m[last := m[last].(next := t[0])];
    var u := s + t;
    forall k | 0 <= k < |u| ensures LinkedAt(m', u, k) {
      if k < |s| - 1 {
        assert LinkedAt(m, s, k);
        assert u[k] == s[k] && u[k + 1] == s[k + 1];
        assert s[k] != last;
      } else if k == |s| - 1 {
        assert u[k] == last && u[k + 1] == t[0];
      } else {
        assert LinkedAt(m, t, k - |s|);
        assert u[k] == t[k - |s|];
        assert t[k - |s|] != last;
        assert NextIn(u, k) == NextIn(t, k - |s|);
      }
    }
    forall j, k | 0 <= j < k < |u| ensures u[j] != u[k] {
      if k < |s| {
        assert u[j] == s[j] && u[k] == s[k];
      } else if j >= |s| {
        assert u[j] == t[j - |s|] && u[k] == t[k - |s|];
      } else {
        assert u[j] == s[j] && u[k] == t[k - |s|];
        assert s[j] in s && t[k - |s|] in t;
      }
    }
    assert last !in t;
    CapsFrame(m, m', t);
    assert s == s[..|s| - 1] + [last];
    assert last !in s[..|s| - 1] by { OnlyOnce(m, s, |s| - 1); }
    CapsFrame(m, m', s[..|s| - 1]);
    CapsAppend(m, s[..|s| - 1], [last]);
    CapsAppend(m', s[..|s| - 1], [last]);
    CapsPair(m, last, last);
    CapsPair(m', last, last);
    CapsAppend(m', s, t);
  }

  /** Toggling a header's occupancy flag changes neither the links nor the
      capacities. */
  lemma FlagKeepsChain(m: map<nat, Header>, s: seq<nat>, x: nat, free: bool)
    requires Closed(m) && IsChain(m, s) && x in m
    ensures Closed(m[x := m[x].(isFree := free)])
    ensures IsChain(m[x := m[x].(isFree := free)], s)
    ensures Caps(m[x := m[x].(isFree := free)], s) == Caps(m, s)
  {
    var m' := m[x := m[x].(isFree := free)];
    forall k | 0 <= k < |s| ensures LinkedAt(m', s, k) {
      assert LinkedAt(m, s, k);
    }
    CapsFlag(m, s, x, free);
  }

  lemma {:induction false} CapsFlag(m: map<nat, Header>, s: seq<nat>, x: nat, free: bool)
    requires (forall y :: y in s ==> y in m) && x in m
    ensures Caps(m[x := m[x].(isFree := free)], s) == Caps(m, s)
  {
    if s != [] {
      CapsFlag(m, s[1..], x, free);
    }
  }

  /** Redirecting a stored link to null or to a stored header keeps the store
      closed. */
  lemma RelinkKeepsClosed(m: map<nat, Header>, x: nat, y: nat)
    requires Closed(m) && x in m && (y == NULL || y in m)
    ensures Closed(m[x := m[x].(next := y)])
  {
  }

  /** The heap `(h, c)` extends `(h0, c0)`: it is closed and a valid chain,
      `c0` is a prefix of `c` and at most two headers follow it, the capacity
      sum grew by `added`, and no used block was touched or created. */
  ghost predicate Extended(h0: map<nat, Header>, c0: seq<nat>, h: map<nat, Header>, c: seq<nat>, added: nat)
  {
    IsChain(h0, c0) && Closed(h) && IsChain(h, c) &&
    0 < |c0| <= |c| <= |c0| + 2 && c[..|c0|] == c0 &&
    Caps(h, c) == Caps(h0, c0) + added &&
    UsedKept(h0, c0, h, c)
  }
}

=== FILE: layout.dfy ===
/** Byte layout of a block header, the size/capacity conversions, the page
    arithmetic used to size regions, and the pure predicates on headers.
    Addresses are natural numbers; address 0 is the null pointer. */
module Layout {

  /** The null pointer. */
  const NULL: nat := 0

  /** offsetof(struct block_header, contents): a `next` pointer (8 bytes), a
      `size_t` capacity (8 bytes) and a `bool` flag (1 byte). */
  const H: nat := 17

  /** sizeof(struct block_header): the 17 bytes above padded to 8-byte
      alignment. Typed pointer arithmetic on a header pointer scales by it. */
  const HEADER_SIZEOF: nat := 24

  /** The page granularity of the mapping primitive. */
  const PAGE_SIZE: nat := 4096

  /** No region is mapped smaller than this. */
  const REGION_MIN_SIZE: nat := 2 * 4096

  /** A split never leaves a block with less capacity than this. */
  const BLOCK_MIN_CAPACITY: nat := 24

  /** The preferred address of the first region. */
  const HEAP_START: nat := 0x0404_0000

  /** 2^64: the modulus of `size_t` arithmetic. */
  const SIZE_MOD: nat := 0x1_0000_0000_0000_0000

  /** A block header: the forward link, the usable byte count and the
      occupancy flag. The contents start H bytes after the header. */
  datatype Header = Header(next: nat, capacity: nat, isFree: bool)

  /** The region descriptor returned by the region provider. */
  datatype Region = Region(addr: nat, size: nat, extendsPrev: bool)

  /** REGION_INVALID: the descriptor of a failed mapping. */
  const REGION_INVALID: Region := Region(NULL, 0, false)

  /** What the operating system answers to the two mapping requests of one
      region allocation: whether the fixed-placement request at the hint
      succeeds, and otherwise where the free-placement request puts the
      region (NULL when it fails as well). */
  datatype PageMapper = PageMapper(fixedOk: bool, fallback: nat)

  /** Where alloc_region's mapping lands for a request at `hint`: at the hint
      when the fixed placement succeeds, else where the second request puts
      it (NULL when that fails too). */
  function Placement(hint: nat, os: PageMapper): nat
  {
    if os.fixedOk then hint else os.fallback
  }

  /** The larger of two sizes (size_max). */
  function Max(a: nat, b: nat): (r: nat)
    ensures r >= a && r >= b
    ensures r == a || r == b
  {
    if a >= b then a else b
  }

  /** Subtraction of `size_t` values: a negative difference wraps around
      modulo 2^64. */
  function SizeSub(a: nat, b: nat): (r: nat)
    ensures b <= a ==> r + b == a
    ensures a < b <= a + SIZE_MOD ==> r + b == a + SIZE_MOD
    ensures a < b ==> r < SIZE_MOD
  {
    if b <= a then a - b else (a - b) % SIZE_MOD
  }

  /** size_from_capacity: the size of a block whose contents hold `cap` bytes. */
  function SizeFromCapacity(cap: nat): (sz: nat)
    ensures sz >= H && CapacityFromSize(sz) == cap
  {
    cap + H
  }

  /** capacity_from_size: the capacity of a block of `sz` bytes; a size below
      the header overhead wraps around as `size_t` does. */
  function CapacityFromSize(sz: nat): (cap: nat)
    ensures H <= sz ==> cap + H == sz
    ensures sz < H ==> cap + H == sz + SIZE_MOD
  {
    SizeSub(sz, H)
  }

  /** The two conversions are inverse to each other and differ by H. */
  lemma CapacitySizeRoundTrip(cap: nat, sz: nat)
    ensures SizeFromCapacity(cap) == cap + H
    ensures CapacityFromSize(SizeFromCapacity(cap)) == cap
    ensures H <= sz ==> SizeFromCapacity(CapacityFromSize(sz)) == sz
    ensures H <= sz ==> CapacityFromSize(sz) + H == sz
  {
  }

  /** block_is_big_enough. */
  predicate BlockIsBigEnough(query: nat, h: Header)
  {
    h.capacity >= query
  }

  /** pages_count: the number of pages that hold `mem` bytes. */
  function PagesCount(mem: nat): (n: nat)
    ensures n * PAGE_SIZE >= mem
    ensures mem > 0 ==> (n - 1) * PAGE_SIZE < mem
    ensures mem == 0 ==> n == 0
  {
    mem / PAGE_SIZE + (if mem % PAGE_SIZE > 0 then 1 else 0)
  }

  /** round_pages: `mem` rounded up to a whole number of pages. */
  function RoundPages(mem: nat): (r: nat)
    ensures r % PAGE_SIZE == 0
    ensures mem <= r < mem + PAGE_SIZE
  {
    var n := PagesCount(mem);
    assert n * PAGE_SIZE % PAGE_SIZE == 0 by { MultipleOfPage(n); }
    PAGE_SIZE * n
  }

  lemma MultipleOfPage(n: nat)
    ensures n * PAGE_SIZE % PAGE_SIZE == 0
  {
  }

  /** region_actual_size: the size actually mapped for a request of `query`
      bytes: whole pages, and never less than REGION_MIN_SIZE. */
  function RegionActualSize(query: nat): (r: nat)
    ensures r % PAGE_SIZE == 0
    ensures r >= query && r >= REGION_MIN_SIZE
    ensures r < query + PAGE_SIZE || r == REGION_MIN_SIZE
  {
    Max(RoundPages(query), REGION_MIN_SIZE)
  }

  /** region_is_invalid. */
  predicate RegionIsInvalid(r: Region)
  {
    r.addr == NULL
  }

  /** The contents pointer of the block whose header is at `block`. */
  function ContentsOf(block: nat): (p: nat)
  {
    block + H
  }

  /** block_get_header: recover a header from a contents pointer. */
  function BlockGetHeader(contents: nat): (block: nat)
    requires contents >= H
    ensures ContentsOf(block) == contents
  {
    contents - H
  }

  /** Converting a header to its contents pointer and back yields the header. */
  lemma HeaderContentsRoundTrip(block: nat)
    ensures ContentsOf(block) > block
    ensures BlockGetHeader(ContentsOf(block)) == block
  {
  }

  /** block_splittable: the block is free and holds the (already floored)
      query, another header and a minimum-capacity remainder. */
  predicate BlockSplittable(h: Header, query: nat)
  {
    h.isFree && query + H + BLOCK_MIN_CAPACITY <= h.capacity
  }

  /** block_after: the first address past the block's declared contents. */
  function BlockAfter(block: nat, h: Header): (a: nat)
    ensures a >= ContentsOf(block)
  {
    ContentsOf(block) + h.capacity
  }

  /** blocks_continuous. */
  predicate BlocksContinuous(fst: nat, fstHdr: Header, snd: nat)
  {
    snd == BlockAfter(fst, fstHdr)
  }

  /** mergeable: both blocks free and the second starting where the first's
      declared contents end. */
  predicate Mergeable(fst: nat, fstHdr: Header, snd: nat, sndHdr: Header)
  {
    fstHdr.isFree && sndHdr.isFree && BlocksContinuous(fst, fstHdr, snd)
  }

  /** The address hint grow_heap passes for the region after `last`: it adds
      the block's size to a header pointer, so the offset is scaled by
      HEADER_SIZEOF. */
  function GrowHint(last: nat, h: Header): (hint: nat)
  {
    last + SizeFromCapacity(h.capacity) * HEADER_SIZEOF
  }

  /** The hint lies strictly past the end of `last`'s declared contents, so a
      region placed exactly at the hint never starts where `last` ends. */
  lemma GrowHintPastBlockEnd(last: nat, h: Header)
    ensures GrowHint(last, h) > BlockAfter(last, h)
    ensures GrowHint(last, h) - BlockAfter(last, h) == (HEADER_SIZEOF - 1) * SizeFromCapacity(h.capacity)
  {
  }
}
